=== FILE: README.md ===
# Temporal-join ETL core of `transport_rtl`, modelled in Dafny

This project models the transformation at the heart of
`scripts/etl_pipeline.py`. Two feeds enter it: a public-transport feed
(ridership per route, city and bus stop) and a traffic-sensor feed (average
speed and congestion index per route). The chain of steps is:

- **Schema gate.** Each loader checks its required labels. The public loader
  then renames `timing` to `timestamp`.
- **Cleaner.** It drops rows whose timestamp or numeric fields fail to parse.
- **Joiner.** It floors both timestamps to the hour and inner-joins on
  `(route_id, hour)`. Labels present on both sides get `_public` and
  `_traffic` suffixes, and the hour key becomes `event_hour`. Before
  matching, the merge checks the route-id keys of the cleaned frames. It
  raises when one feed stores its route ids as numbers and the other's
  surviving route ids are strings. It skips the check when exactly one
  cleaned frame has no rows (the model also skips it when both have none;
  see "Left out").
- **Summary.** It groups by `(route_id, city_public, bus_stop)` and averages
  ridership and congestion.

Tables are data frames: a set of labels plus a sequence of rows, each row a
map from label to cell. A cell is missing, text, a number (`real`) or an
instant in integer nanoseconds.

The timestamp and number parsers (`pd.to_datetime`, `pd.to_numeric` with
`errors="coerce"`) are opaque: they are a pair of total functions returning
`Option`, passed in by the caller. The run itself is reduced to the list of
outputs it writes and the way it ends.

Modules:

- `Results`: `Option` and `Result`.
- `Frames`: tables, cells and labels.
- `Keys`: generic multiplicity, distinct keys, join pairs and group products.
- `Schema`: the loaders.
- `Cleaner`: `validate_and_clean`.
- `Hours`: the hour floor.
- `Join`: `build_unified_table`.
- `Summary`: the group-by mean, as a specification and as a one-pass hash
  aggregation.
- `Pipeline`: `run_pipeline`.

## Model

| member | source | states |
|---|---|---|
| Schema.LoadPublic | scripts/etl_pipeline.py:49-56 | The public loader fails exactly when some required label (`route_id`, `city`, `bus_stop`, `ridership`, `timing`) is missing. The error carries precisely required minus observed. Otherwise the frame comes back with `timing` relabelled `timestamp` and nothing else changed. |
| Schema.LoadTraffic | scripts/etl_pipeline.py:69-73 | The traffic loader fails exactly when `route_id`, `avg_speed`, `congestion_index` or `timestamp` is missing, reporting required minus observed. Otherwise the frame passes through unchanged. |
| Schema.RenameColumn | scripts/etl_pipeline.py:54-55 | Relabelling keeps every row: the new label holds the old label's values, and every other cell is untouched. |
| Cleaner.CoerceColumn | scripts/etl_pipeline.py:85-90 | Coercing a numeric column fails exactly when the row has that column and its value does not parse. On success the value is replaced by the parsed number; a row without the column is unchanged. |
| Cleaner.CleanRow | scripts/etl_pipeline.py:78-95 | A row is dropped exactly when its timestamp does not parse or some numeric column it carries does not coerce; a missing value never parses. A kept row has the same labels, the parsed instant, the parsed numbers, and every other cell unchanged. |
| Cleaner.KeptIndices | scripts/etl_pipeline.py:78-95 | The indices of the surviving rows are ascending and in range. An index is listed exactly when that row's coercions all succeed. |
| Cleaner.CleanSelectsSurvivors | scripts/etl_pipeline.py:76-97 | Cleaning only filters. Its output is the order-preserving selection of the surviving input rows, each replaced by its coerced version and nothing added. |
| Cleaner.Clean | scripts/etl_pipeline.py:76-97 | The cleaned frame keeps the labels and never has more rows. Every row holds a parsed instant in the time column and a number in each numeric column present. |
| Cleaner.CleanKeepsOtherColumn | scripts/etl_pipeline.py:76-97 | A column the cleaner neither parses nor coerces keeps, in each surviving row, exactly the value that row had in the input. |
| Hours.HourFloor | scripts/etl_pipeline.py:102-103 | The bucket is an hour boundary `h` with `h <= t < h + 1 hour`. |
| Hours.HourFloorUnique | scripts/etl_pipeline.py:102-103 | Those two properties determine the bucket. |
| Hours.HourFloorIdempotent | scripts/etl_pipeline.py:102-103 | Flooring a floored instant changes nothing. |
| Hours.SameBucketIff | scripts/etl_pipeline.py:102-103 | Two instants share a bucket exactly when the second lies in the first one's hour. |
| Keys.JoinPairs | scripts/etl_pipeline.py:105-111 | The join pairs are in range and strictly increasing (left-major). A pair is listed exactly when the two keys are equal, and the count is the sum of each left key's right multiplicity. |
| Keys.MatchTotalByGroups | scripts/etl_pipeline.py:105-111 | That sum equals the sum, over the distinct left keys, of left multiplicity times right multiplicity. |
| Keys.NoPairsWithEmptySide | scripts/etl_pipeline.py:105-111 | With no left keys or no right keys, the join pairs nothing. |
| Join.KeyDtypeOf | scripts/etl_pipeline.py:105-111 | What a route-id column holds, read off its cells: no values when every cell is missing; numbers exactly when some cell is a number and every cell is a number or missing; strings likewise for text. |
| Join.StorageOf | scripts/etl_pipeline.py:46-48 | In the model's reading of storage (see "Left out"), a column is stored as objects exactly when some cell the reader produced is not a number or missing; otherwise it is stored as numbers. |
| Join.CheckMergeKeys | scripts/etl_pipeline.py:105-111 | The model's key check (its gaps from pandas are under "Left out") fails exactly when both sides have rows, and one side is stored as numbers while the other is stored as objects whose values are all strings (missing values aside, at least one string). Its verdict then names the two storages. |
| Keys.Distinct | scripts/etl_pipeline.py:126 | The distinct keys have no repeats and exactly the members of the input. |
| Join.JoinIndex | scripts/etl_pipeline.py:102-111 | A public row and a traffic row are paired exactly when their route ids are equal and their hour buckets are equal. Pairs are in range and in left-major order. |
| Join.BuildUnified | scripts/etl_pipeline.py:100-115 | The unified frame's labels are the join's labels, and it is well formed. It has one row per matching pair, in pair order: the merge of that public row and that traffic row. |
| Join.MergeRow | scripts/etl_pipeline.py:105-114 | A merged row carries exactly the unified labels. |
| Join.MergeRowValues | scripts/etl_pipeline.py:105-114 | Provenance. `route_id` comes from the pair, and `event_hour` is the bucket. A label on one side only keeps its name and value; a label on both sides appears as `_public` with the public value and as `_traffic` with the traffic value. |
| Join.TaggedLabelsDistinct | scripts/etl_pipeline.py:110 | A `_public` label never equals a `_traffic` label, `route_id` or `event_hour`. Stripping the suffix gives back the original label. |
| Join.JoinCardinality | scripts/etl_pipeline.py:105-111 | The unified row count is the sum over the distinct public keys of (public rows with that key) times (traffic rows with that key). Nothing is deduplicated, and keys missing on one side contribute nothing. |
| Join.MergedTimestamps | scripts/etl_pipeline.py:102-114 | For a matching pair, `timestamp_public` and `timestamp_traffic` hold the two instants, and `event_hour` is the bucket of each. |
| Join.EventHourIsBucketOfBoth | scripts/etl_pipeline.py:102-114 | In every unified row, `event_hour` is the hour floor of both `timestamp_public` and `timestamp_traffic`. |
| Join.NumericLabelOrigin | scripts/etl_pipeline.py:105-111 | A numeric label of the unified frame is carried over unsuffixed from exactly one side. |
| Join.UnifiedKeepsNumbers | scripts/etl_pipeline.py:105-111 | The join keeps the cleaner's guarantee: every numeric column of the unified frame holds numbers. |
| Join.EmptySideJoinsNothing | scripts/etl_pipeline.py:105-111 | An inner join in which one frame has no rows produces no rows. |
| Summary.GroupKeysOfMeaning | scripts/etl_pipeline.py:126 | The group keys are exactly those of the rows whose three key cells are all present. |
| Summary.Members | scripts/etl_pipeline.py:126 | A group's members are rows of the table with that key. There are as many as the key's occurrences among the grouped rows. |
| Summary.MemberIndices | scripts/etl_pipeline.py:126 | The positions of a group's rows are ascending and in range. A position is listed exactly when its row has all key cells present and that key. |
| Summary.MembersAtIndices | scripts/etl_pipeline.py:126 | A group is exactly the rows at those positions, in row order: every row with that key once, and no other row. |
| Summary.RowFor | scripts/etl_pipeline.py:126-127 | A group's report line has a nonempty group, and its averages are the group's sums divided by its size. |
| Summary.Summarize | scripts/etl_pipeline.py:124-135 | The report has one line per distinct group key: no key twice, and a key appears exactly when it is a group key. Each line's averages are that group's sums divided by its size. |
| Summary.ReportKeys | scripts/etl_pipeline.py:124-135 | The report has a line for a key exactly when some row with all key cells present has that key. |
| Summary.TallyStep | scripts/etl_pipeline.py:126-127 | Scanning one more row adds it to its own group's count and sums and leaves every other group alone. |
| Summary.ScanStep | scripts/etl_pipeline.py:126-127 | The hash update for one row keeps the invariant: the first-seen key order, and each key's running totals equal its group's totals so far. |
| Summary.Aggregate | scripts/etl_pipeline.py:124-135 | A single pass with a running count and sums per key, means taken at the end, produces exactly `Summarize`. |
| Pipeline.CleanedPublic | scripts/etl_pipeline.py:191 | The loaded public frame after cleaning has hour-bucketable timestamps, numbers in its numeric columns, and the loaded labels. |
| Pipeline.CleanedTraffic | scripts/etl_pipeline.py:192 | The same holds for the loaded traffic frame, whose labels are unchanged. |
| Pipeline.Unified | scripts/etl_pipeline.py:191-197 | The unified table of the two loaded feeds, once cleaned, is well formed, holds numbers in its numeric columns, and carries the join's labels. |
| Pipeline.Persist | scripts/etl_pipeline.py:200-209 | After the join, the unified table is written to the CSV file and then to the `transport_traffic` table. The report is written and the run completes exactly when the table carries the summary's labels; otherwise the run fails naming the missing labels, after the two writes. |
| Pipeline.RunWith | scripts/etl_pipeline.py:174-212 | How a run ends is a function of the input labels and of the merge's key check (`Outcome`). The key check compares each feed's route-id storage as read with the route ids that survive cleaning. The checks come in this order: public schema, traffic schema, merge keys, label clash, summary labels. A schema, key or clash failure happens before anything is written. A summary failure leaves exactly the two unified writes, and a completed run makes three writes. |
| Pipeline.MergeKeyFailureWritesNothing | scripts/etl_pipeline.py:105-111 | Once both schemas pass, the run fails at the merge exactly when the key check on the cleaned frames fails. Such a run has written nothing. |
| Pipeline.EmptiedFeedSkipsKeyCheck | scripts/etl_pipeline.py:191-204 | When cleaning leaves one feed without rows, the key check passes whatever the route ids were. If labels do not clash, the unified table has no rows and is still written twice. |
| Pipeline.StringsLeftAfterCleaning | scripts/etl_pipeline.py:105-111 | Public route ids stored as numbers, against traffic route ids stored as objects of which only strings survive cleaning (`[101, "101"]` with the `101` row dropped): with rows on both sides, the run fails at the merge and writes nothing. |
| Pipeline.NumericAgainstTextRouteIds | scripts/etl_pipeline.py:105-111 | Public route ids that are all numbers, against traffic route ids that are all strings (`101` against `"101"`): when cleaning leaves rows on both sides, the run fails at the merge with no writes. |
| Pipeline.StoredAsNumbers | scripts/etl_pipeline.py:46-48 | In the model's reading of storage (see "Left out"), route ids that are all numbers or missing are stored as numbers. |
| Pipeline.StoredAsObjects | scripts/etl_pipeline.py:64-68 | One string among the route ids makes the column an object column. |
| Pipeline.CleanedStaysText | scripts/etl_pipeline.py:193 | Cleaning a traffic feed whose route ids are all strings leaves only strings. |
| Pipeline.UnifiedWrittenFirst | scripts/etl_pipeline.py:197-209 | Once the schemas pass, the merge's key check passes and labels do not clash, the first two writes are the unified table (CSV, then database). A completed run's third write is the summary of that table. |
| Pipeline.AsWrittenSummaryFails | scripts/etl_pipeline.py:126 | With exactly the required input labels and a passing key check, grouping by `city_public` fails with `city_public` missing, after the unified table was written twice. |
| Pipeline.CorrectedLabels | scripts/etl_pipeline.py:105-111 | Grouping by the public city's actual label finds every label it needs exactly when bus stop, ridership and congestion each come from one side only. |
| Pipeline.RequiredLacksCityPublic | scripts/etl_pipeline.py:49-126 | On the required labels the unified table has every label the summary selects except `city_public`. |
| Pipeline.CorrectedCompletes | scripts/etl_pipeline.py:124-135 | The corrected run completes exactly when both schemas pass, the merge's key check passes, labels do not clash, and bus stop, ridership and congestion come from one side only. It then makes three writes. |
| Pipeline.CorrectedRequired | scripts/etl_pipeline.py:124-135 | On inputs with exactly the required labels that pass the merge's key check, the corrected run completes. |

## Left out

- Fetching and reading inputs (HTTP, CSV and JSON files, the environment
  switch between URL and path) is I/O. The loaders are modelled from the
  moment the frame is in hand.
- The CSV and database writes are recorded as outputs. Nothing models their
  formats or the `if_exists="replace"` semantics.
- Also left out as side-effecting plumbing: `git pull`, failure e-mail,
  logging, directory creation and the `__main__` handler.
- The internals of `pd.to_datetime` and `pd.to_numeric` are opaque parsers.
  A missing cell never parses.
- Means are exact `real` division. Floating-point rounding is not modelled.
- Row order of `pd.merge` is not claimed. The model uses left-major pair
  order.
- The order of `groupby` groups is not modelled. The model lists groups in
  order of first appearance, and both the specification and the hash
  aggregation use that order.
- The renaming of the report's columns to `avg_ridership` and
  `avg_congestion_index` is modelled only as the fields of `SummaryRow`.
- Schema.LoadPublic: when the raw public frame has both `timing` and
  `timestamp`, pandas keeps two `timestamp` labels. The model keeps one (the
  renamed `timing`).
- Pipeline.RunWith: a label clash fails the run before the join (`NameClash`).
  A clash means `event_hour` already present, or a suffixed label equal to an
  existing one. In pandas it surfaces as a merge error or as duplicate labels
  that fail later, possibly after some writes.
- Join.StorageOf: a column with no values counts as stored as numbers.
  pandas stores it as objects in two cases: an all-missing column built by
  the JSON reader, and a column of a CSV with a header and no rows.
- Pipeline.StoredAsNumbers: states the model's storage rule, so it shares
  the gap of `Join.StorageOf`. An all-missing JSON route-id column, and a
  zero-row CSV route-id column, are objects in pandas but numbers here.
- Join.CheckMergeKeys: three cases pass in the model although pandas raises:
  - objects holding floats mixed with strings (pandas infers `mixed`);
  - objects whose surviving values are all missing (pandas infers `mixed`);
  - both sides without rows, with `float64` on one side and an empty
    object column on the other (pandas does not skip the check then).
  `int64` and `float64` storage are not told apart.
- Pipeline.RunWith: the merge's key check is modelled from cells. A
  column's storage is read off the loaded cells, and the type pandas infers
  for an object column is read off the cleaned cells. Five cases follow
  pandas only approximately:
  - A raw column with no values counts as stored as numbers. The JSON
    reader stores an all-missing column as objects, and the CSV reader
    stores every column of a file with no rows as objects.
  - When both cleaned frames are empty, the model never fails the check.
    pandas still compares the two kinds, and `float64` against an empty
    object column raises.
  - Objects holding floats mixed with strings pass in the model. pandas
    infers `mixed` and raises.
  - Objects whose surviving values are all missing pass in the model.
  - `int64` and `float64` are not told apart.
- Pipeline.RunWith: pandas also refuses to merge `timestamp_hour` keys when
  one side is timezone-aware and the other naive. The model's instants
  carry no timezone, so that failure does not arise.
- Pipeline.RunWith: a missing summary label reports the whole set of missing
  labels. pandas raises `KeyError` naming the first label it misses.
- Hours.HourFloor: timestamps are taken as timezone-naive `datetime64[ns]`
  counts. For a timezone-aware column, pandas floors the local wall-clock
  time, so offsets such as +05:30 put instants in different buckets. It
  also raises on ambiguous or nonexistent daylight-saving times. Neither
  is modelled.
- The format inference of `pd.to_datetime` is not modelled. pandas infers
  one format per column from its first non-missing value, while the model's
  time parser reads each cell on its own, and the same parser serves both
  feeds.
- Cleaner.Clean: requires the time column not to be one of the numeric
  columns. The pipeline always cleans on `timestamp`.
- Summary.Aggregate: a one-pass formulation of the same means, proved equal
  to `Summarize`. pandas' own group-by algorithm is not modelled.
- `app/dashboard.py` (a UI over the stored table) and
  `scripts/airflow_transport_etl_dag.py` (scheduling) are not part of this
  model.

## Findings

| source | as written | input that shows it | evidently intended | confidence | as-written member | corrected member |
|---|---|---|---|---|---|---|
| scripts/etl_pipeline.py:126 | The summary groups by `city_public`. pandas only suffixes labels present in both frames, and the traffic feed's required labels do not include `city`, so the unified table has `city`, not `city_public`. The summary raises `KeyError` after the unified table was already written to CSV and to the database. | Any public frame with exactly `route_id, city, bus_stop, ridership, timing` and any traffic frame with exactly `route_id, avg_speed, congestion_index, timestamp`, whose cleaned frames pass the merge's key check (not route ids stored as numbers on one side against only strings surviving cleaning on the other) | Group by the label that carries the public city in the unified table: `city_public` when the traffic feed also has `city`, else `city`. | not executed | Pipeline.AsWrittenSummaryFails | Pipeline.CorrectedCompletes |

=== FILE: cleaner.dfy ===
/** `validate_and_clean` (scripts/etl_pipeline.py:76-97): drop rows whose time
    column is missing or does not parse, then coerce each numeric column the
    frame has and drop rows where any coercion failed.  The parsers
    `pd.to_datetime(errors="coerce")` and `pd.to_numeric(errors="coerce")` are
    opaque partial functions supplied by the caller; a missing value never
    parses, because `dropna` removes it first (or the coercion yields NaN/NaT,
    which `dropna` then removes). */
module Cleaner {
  import opened Results
  import opened Frames

  datatype Parsers = Parsers(time: Cell -> Option<int>, number: Cell -> Option<real>)

  function ParseTime(c: Cell, p: Parsers): (t: Option<int>)
    ensures c.Null? ==> t.None?
  {
    if c.Null? then None else p.time(c)
  }

  function ParseNumber(c: Cell, p: Parsers): (x: Option<real>)
    ensures c.Null? ==> x.None?
  {
    if c.Null? then None else p.number(c)
  }

  /** Every numeric column present in the row coerces. */
  predicate NumbersParse(r: Row, p: Parsers) {
    forall c :: c in NumericColumns && c in r ==> ParseNumber(r[c], p).Some?
  }

  /** Coerces column `c` of the row when the row has it. */
  function CoerceColumn(r: Row, c: Column, p: Parsers): (o: Option<Row>)
    ensures o.None? <==> c in r && ParseNumber(r[c], p).None?
    ensures o.Some? ==> o.value == (if c in r then r[c := Num(ParseNumber(r[c], p).value)] else r)
  {
    if c !in r then Some(r)
    else
      match ParseNumber(r[c], p)
      case None => None
      case Some(x) => Some(r[c := Num(x)])
  }

  /** The fate of one row: `None` when it is dropped, otherwise the row with
      its timestamp and numeric columns replaced by their parsed values. */
  function CleanRow(r: Row, timeCol: Column, p: Parsers): (o: Option<Row>)
    requires timeCol in r && timeCol !in NumericColumns
    ensures o.None? <==> ParseTime(r[timeCol], p).None? || !NumbersParse(r, p)
    ensures o.Some? ==> o.value.Keys == r.Keys
    ensures o.Some? ==> o.value[timeCol] == Time(ParseTime(r[timeCol], p).value)
    ensures o.Some? ==> forall c :: c in NumericColumns && c in r ==>
              o.value[c] == Num(ParseNumber(r[c], p).value)
    ensures o.Some? ==> forall c :: c in r && c != timeCol && c !in NumericColumns ==>
              o.value[c] == r[c]
  {
    var t :- ParseTime(r[timeCol], p);
    var stamped := r[timeCol := Time(t)];
    var r1 :- CoerceColumn(stamped, Ridership, p);
    var r2 :- CoerceColumn(r1, AvgSpeed, p);
    CoerceColumn(r2, CongestionIndex, p)
  }

  /** The surviving rows, cleaned, in their original order. */
  function CleanRows(rows: seq<Row>, timeCol: Column, p: Parsers): (out: seq<Row>)
    requires forall i :: 0 <= i < |rows| ==> timeCol in rows[i]
    requires timeCol !in NumericColumns
    ensures |out| <= |rows|
  {
    if |rows| == 0 then []
    else
      var prefix := CleanRows(rows[..|rows| - 1], timeCol, p);
      match CleanRow(rows[|rows| - 1], timeCol, p)
      case None => prefix
      case Some(r) => prefix + [r]
  }

  /** Indices of the rows that survive cleaning, ascending. */
  function KeptIndices(rows: seq<Row>, timeCol: Column, p: Parsers): (idx: seq<nat>)
    requires forall i :: 0 <= i < |rows| ==> timeCol in rows[i]
    requires timeCol !in NumericColumns
    ensures forall i: nat :: i in idx <==> i < |rows| && CleanRow(rows[i], timeCol, p).Some?
    ensures forall a, b :: 0 <= a < b < |idx| ==> idx[a] < idx[b]
    ensures forall a :: 0 <= a < |idx| ==> idx[a] < |rows|
  {
    if |rows| == 0 then []
    else
      var n := |rows| - 1;
      var prefix := KeptIndices(rows[..n], timeCol, p);
      if CleanRow(rows[n], timeCol, p).Some? then prefix + [n] else prefix
  }

  /** `validate_and_clean(df, time_col)`. */
  function Clean(t: Table, timeCol: Column, p: Parsers): (r: Table)
    requires WellFormed(t) && timeCol in t.columns && timeCol !in NumericColumns
    ensures WellFormed(r) && r.columns == t.columns
    ensures |r.rows| <= |t.rows|
    ensures forall i :: 0 <= i < |r.rows| ==> r.rows[i][timeCol].Time?
    ensures NumericCells(r)
  {
    CleanRowsShape(t.rows, timeCol, p, t.columns);
    var out := CleanRows(t.rows, timeCol, p);
    assert forall i :: 0 <= i < |out| ==> CleanShape(out[i], timeCol, t.columns);
    Table(t.columns, out)
  }

  /** A row that survives cleaning keeps the frame's columns, holds a parsed
      timestamp and a number in each numeric column. */
  predicate CleanShape(r: Row, timeCol: Column, cols: set<Column>) {
    && r.Keys == cols
    && timeCol in r && r[timeCol].Time?
    && forall c :: c in NumericColumns && c in cols ==> r[c].Num?
  }

  lemma {:induction false} CleanRowsShape(rows: seq<Row>, timeCol: Column, p: Parsers, cols: set<Column>)
    requires forall i :: 0 <= i < |rows| ==> rows[i].Keys == cols
    requires timeCol in cols && timeCol !in NumericColumns
    ensures forall i :: 0 <= i < |CleanRows(rows, timeCol, p)| ==>
              CleanShape(CleanRows(rows, timeCol, p)[i], timeCol, cols)
  {
    if |rows| > 0 {
      var n := |rows| - 1;
      CleanRowsShape(rows[..n], timeCol, p, cols);
      var prefix := CleanRows(rows[..n], timeCol, p);
      var o := CleanRow(rows[n], timeCol, p);
      if o.Some? {
        assert CleanShape(o.value, timeCol, cols);
        assert CleanRows(rows, timeCol, p) == prefix + [o.value];
      } else {
        assert CleanRows(rows, timeCol, p) == prefix;
      }
    }
  }

  /** Cleaning only filters: the output is the order-preserving selection of
      exactly the input rows whose coercions all succeed, each replaced by its
      coerced version. */
  lemma {:induction false} CleanSelectsSurvivors(rows: seq<Row>, timeCol: Column, p: Parsers)
    requires forall i :: 0 <= i < |rows| ==> timeCol in rows[i]
    requires timeCol !in NumericColumns
    ensures var out := CleanRows(rows, timeCol, p);
      var idx := KeptIndices(rows, timeCol, p);
      && |out| == |idx|
      && forall k :: 0 <= k < |out| ==> CleanRow(rows[idx[k]], timeCol, p) == Some(out[k])
  {
    if |rows| > 0 {
      var n := |rows| - 1;
      CleanSelectsSurvivors(rows[..n], timeCol, p);
    }
  }

  /** A column the cleaner neither parses nor coerces keeps, in each
      surviving row, the value that row had in the input. */
  lemma CleanKeepsOtherColumn(t: Table, timeCol: Column, p: Parsers, c: Column)
    requires WellFormed(t) && timeCol in t.columns && timeCol !in NumericColumns
    requires c in t.columns && c != timeCol && c !in NumericColumns
    ensures var r := Clean(t, timeCol, p);
      var idx := KeptIndices(t.rows, timeCol, p);
      && |r.rows| == |idx|
      && forall k :: 0 <= k < |r.rows| ==> r.rows[k][c] == t.rows[idx[k]][c]
  {
    CleanSelectsSurvivors(t.rows, timeCol, p);
    var r := Clean(t, timeCol, p);
    var idx := KeptIndices(t.rows, timeCol, p);
    forall k | 0 <= k < |r.rows|
      ensures r.rows[k][c] == t.rows[idx[k]][c]
    {
      assert CleanRow(t.rows[idx[k]], timeCol, p) == Some(r.rows[k]);
    }
  }
}

=== FILE: frames.dfy ===
/** The tabular data model: a data frame is a set of column labels and a
    sequence of rows, each row a map from label to cell.  A cell is what a
    pandas frame can hold at this point of the pipeline: a missing value
    (NaN/NaT/None), raw text, a number, or a parsed timestamp in integer
    nanoseconds since the epoch (pandas `datetime64[ns]`). */
module Frames {

  type Column = string

  datatype Cell = Null | Text(text: string) | Num(num: real) | Time(ns: int)

  type Row = map<Column, Cell>

  datatype Table = Table(columns: set<Column>, rows: seq<Row>)

  /** A frame is rectangular: every row carries exactly the frame's columns. */
  predicate WellFormed(t: Table) {
    forall i :: 0 <= i < |t.rows| ==> t.rows[i].Keys == t.columns
  }

  // Column labels the pipeline refers to by name.
  const RouteId: Column := "route_id"
  const City: Column := "city"
  const BusStop: Column := "bus_stop"
  const Ridership: Column := "ridership"
  const Timing: Column := "timing"
  const Timestamp: Column := "timestamp"
  const AvgSpeed: Column := "avg_speed"
  const CongestionIndex: Column := "congestion_index"
  const TimestampHour: Column := "timestamp_hour"
  const EventHour: Column := "event_hour"
  const CityPublic: Column := "city_public"
  const TimestampPublic: Column := "timestamp_public"
  const TimestampTraffic: Column := "timestamp_traffic"

  // Provenance suffixes the merge appends to labels present on both sides.
  const PublicSuffix: string := "_public"
  const TrafficSuffix: string := "_traffic"

  /** The columns the cleaner coerces to numbers whenever a frame has them. */
  const NumericColumns: set<Column> := {Ridership, AvgSpeed, CongestionIndex}

  /** Every numeric column the frame has holds a number in every row. */
  predicate NumericCells(t: Table)
    requires WellFormed(t)
  {
    forall i, c :: 0 <= i < |t.rows| && c in NumericColumns && c in t.columns ==> t.rows[i][c].Num?
  }
}

=== FILE: hours.dfy ===
/** Hour bucketing, `Series.dt.floor("H")` (scripts/etl_pipeline.py:102-103),
    on timestamps in integer nanoseconds.  Dafny's `%` with a positive divisor
    is the floor remainder, so this also floors instants before the epoch
    downwards, as pandas does. */
module Hours {

  const NanosPerHour: int := 3_600_000_000_000

  /** The start of the clock hour containing `t`. */
  function HourFloor(t: int): (h: int)
    ensures h <= t < h + NanosPerHour
    ensures h % NanosPerHour == 0
  {
    t - t % NanosPerHour
  }

  /** An hour boundary at most an hour below `t` is the floor of `t`: the
      bucket is uniquely determined by the two properties above. */
  lemma HourFloorUnique(t: int, h: int)
    requires h % NanosPerHour == 0 && h <= t < h + NanosPerHour
    ensures HourFloor(t) == h
  {
    var f := HourFloor(t);
    assert f == (f / NanosPerHour) * NanosPerHour;
    assert h == (h / NanosPerHour) * NanosPerHour;
  }

  /** Flooring an already floored timestamp changes nothing. */
  lemma HourFloorIdempotent(t: int)
    ensures HourFloor(HourFloor(t)) == HourFloor(t)
  {
    HourFloorUnique(HourFloor(t), HourFloor(t));
  }

  /** Two timestamps share a bucket exactly when the second lies in the
      first one's hour. */
  lemma SameBucketIff(t: int, u: int)
    ensures HourFloor(t) == HourFloor(u) <==> HourFloor(t) <= u < HourFloor(t) + NanosPerHour
  {
    if HourFloor(t) <= u < HourFloor(t) + NanosPerHour {
      HourFloorUnique(u, HourFloor(t));
    }
  }
}

=== FILE: join.dfy ===
/** `build_unified_table` (scripts/etl_pipeline.py:100-115): both frames get
    an hour bucket column, then `pd.merge(how="inner",
    on=["route_id", "timestamp_hour"], suffixes=("_public", "_traffic"))`,
    then the bucket is renamed `event_hour`.  Labels present on both sides
    other than the keys are kept twice, suffixed by provenance; labels on one
    side only keep their name.  Route identifiers are compared as cells, so a
    missing route id matches a missing route id.  Before matching, the merge
    checks that the two route-id columns can be compared at all
    (`CheckMergeKeys`). */
module Join {
  import opened Frames
  import opened Hours
  import opened Keys

  datatype JoinKey = JoinKey(route: Cell, hour: int)

  const KeyColumns: set<Column> := {RouteId, TimestampHour}

  /** What `build_unified_table` needs of a cleaned frame: a route id and a
      parsed timestamp in every row (`.dt` fails on anything else). */
  predicate Bucketable(t: Table) {
    && WellFormed(t)
    && RouteId in t.columns && Timestamp in t.columns
    && forall i :: 0 <= i < |t.rows| ==> t.rows[i][Timestamp].Time?
  }

  function KeyOf(r: Row): JoinKey
    requires RouteId in r && Timestamp in r && r[Timestamp].Time?
  {
    JoinKey(r[RouteId], HourFloor(r[Timestamp].ns))
  }

  function KeysOf(t: Table): (ks: seq<JoinKey>)
    requires Bucketable(t)
    ensures |ks| == |t.rows|
    ensures forall i :: 0 <= i < |ks| ==> ks[i] == KeyOf(t.rows[i])
  {
    seq(|t.rows|, i requires 0 <= i < |t.rows| => KeyOf(t.rows[i]))
  }

  /** What the values of a route-id column are, read off its cells: no value
      at all, numbers only, strings only, or anything else.  Missing values
      do not change it. */
  datatype KeyDtype = NoValues | NumberKeys | TextKeys | MixedKeys

  /** The kind of a column after one more cell. */
  function WidenDtype(d: KeyDtype, c: Cell): KeyDtype {
    match c
    case Null => d
    case Num(_) => if d == NoValues || d == NumberKeys then NumberKeys else MixedKeys
    case Text(_) => if d == NoValues || d == TextKeys then TextKeys else MixedKeys
    case Time(_) => MixedKeys
  }

  /** The kind of a column of cells. */
  function KeyDtypeOf(cs: seq<Cell>): (d: KeyDtype)
    ensures d == NoValues <==> forall i :: 0 <= i < |cs| ==> cs[i].Null?
    ensures d == NumberKeys <==>
              && (exists i :: 0 <= i < |cs| && cs[i].Num?)
              && (forall i :: 0 <= i < |cs| ==> cs[i].Num? || cs[i].Null?)
    ensures d == TextKeys <==>
              && (exists i :: 0 <= i < |cs| && cs[i].Text?)
              && (forall i :: 0 <= i < |cs| ==> cs[i].Text? || cs[i].Null?)
  {
    if |cs| == 0 then NoValues
    else
      var n := |cs| - 1;
      assert forall i :: 0 <= i < n ==> cs[..n][i] == cs[i];
      WidenDtype(KeyDtypeOf(cs[..n]), cs[n])
  }

  /** How pandas stores a column: as numbers (`int64`/`float64`) when the
      reader found nothing but numbers and missing values, otherwise as
      objects.  The storage is fixed when the feed is read; dropping rows
      later does not change it, although it changes what the surviving
      objects hold (`KeyDtypeOf` of the cleaned cells). */
  datatype Storage = NumericStorage | ObjectStorage

  function StorageOf(cs: seq<Cell>): (s: Storage)
    ensures s == ObjectStorage <==> exists i :: 0 <= i < |cs| && (cs[i].Text? || cs[i].Time?)
  {
    var d := KeyDtypeOf(cs);
    if d == TextKeys || d == MixedKeys then ObjectStorage else NumericStorage
  }

  /** The route-id cell of every row, missing where a row has none. */
  function RouteCells(t: Table): (cs: seq<Cell>)
    ensures |cs| == |t.rows|
    ensures forall i :: 0 <= i < |t.rows| && RouteId in t.rows[i] ==> cs[i] == t.rows[i][RouteId]
  {
    seq(|t.rows|, i requires 0 <= i < |t.rows| => if RouteId in t.rows[i] then t.rows[i][RouteId] else Null)
  }

  /** The verdict of the merge's key check. */
  datatype KeyCheck = KeysCompatible | KeysIncompatible(publicStorage: Storage, trafficStorage: Storage)

  /** pandas' check of the route-id keys before an inner merge
      (`_maybe_coerce_merge_keys`), given each side's storage and the
      route ids of the rows being merged.  pandas skips it when exactly one
      side has no rows; the model also skips it when both sides have none.
      It raises `ValueError` ("You are trying to merge on int64 and object
      columns") when one side is stored as numbers and the other as objects
      whose values are strings, missing values aside.  Objects that hold
      numbers, or integers and strings mixed, pass.  Floats mixed with
      strings, and objects whose values are all missing, make pandas raise
      too; the model lets them pass. */
  function CheckMergeKeys(ps: Storage, pcs: seq<Cell>, ts: Storage, tcs: seq<Cell>): (k: KeyCheck)
    ensures k.KeysIncompatible? <==>
              && |pcs| > 0 && |tcs| > 0
              && (|| (&& ps == NumericStorage && ts == ObjectStorage
                      && (exists i :: 0 <= i < |tcs| && tcs[i].Text?)
                      && (forall i :: 0 <= i < |tcs| ==> tcs[i].Text? || tcs[i].Null?))
                  || (&& ps == ObjectStorage && ts == NumericStorage
                      && (exists i :: 0 <= i < |pcs| && pcs[i].Text?)
                      && (forall i :: 0 <= i < |pcs| ==> pcs[i].Text? || pcs[i].Null?)))
    ensures k.KeysIncompatible? ==> k == KeysIncompatible(ps, ts)
  {
    if && |pcs| > 0 && |tcs| > 0
       && (|| (ps == NumericStorage && ts == ObjectStorage && KeyDtypeOf(tcs) == TextKeys)
           || (ps == ObjectStorage && ts == NumericStorage && KeyDtypeOf(pcs) == TextKeys))
    then KeysIncompatible(ps, ts)
    else KeysCompatible
  }

  /** Non-key labels on both sides, kept twice with provenance suffixes. */
  function Shared(pc: set<Column>, tc: set<Column>): set<Column> {
    (pc * tc) - KeyColumns
  }

  function LeftOnly(pc: set<Column>, tc: set<Column>): set<Column> {
    pc - tc - KeyColumns
  }

  function RightOnly(pc: set<Column>, tc: set<Column>): set<Column> {
    tc - pc - KeyColumns
  }

  function Suffixed(cs: set<Column>, suffix: string): set<Column> {
    set c | c in cs :: c + suffix
  }

  /** The labels of the unified frame. */
  function UnifiedColumns(pc: set<Column>, tc: set<Column>): set<Column> {
    {RouteId, EventHour}
      + LeftOnly(pc, tc) + RightOnly(pc, tc)
      + Suffixed(Shared(pc, tc), PublicSuffix) + Suffixed(Shared(pc, tc), TrafficSuffix)
  }

  /** The unified frame has unique labels: neither `event_hour` nor a
      suffixed label coincides with a label carried over from one side.
      (A suffixed label can never equal `route_id`, `event_hour` or a label
      with the other suffix; see `TaggedLabelsDistinct`.) */
  predicate NoNameClash(pc: set<Column>, tc: set<Column>) {
    && EventHour !in pc && EventHour !in tc
    && forall c :: c in Shared(pc, tc) ==>
         && c + PublicSuffix !in pc && c + PublicSuffix !in tc
         && c + TrafficSuffix !in pc && c + TrafficSuffix !in tc
  }

  predicate HasSuffix(c: Column, suffix: string) {
    |suffix| <= |c| && c[|c| - |suffix|..] == suffix
  }

  function Base(c: Column, suffix: string): Column
    requires |suffix| <= |c|
  {
    c[..|c| - |suffix|]
  }

  /** The cell the merge puts under label `c` of the unified frame. */
  function Pick(p: Row, q: Row, c: Column): Cell
    requires RouteId in p && Timestamp in p && p[Timestamp].Time?
  {
    if c == EventHour then Time(HourFloor(p[Timestamp].ns))
    else if c == RouteId then p[RouteId]
    else if c in p && c !in q && c !in KeyColumns then p[c]
    else if c in q && c !in p && c !in KeyColumns then q[c]
    else if HasSuffix(c, PublicSuffix) && Base(c, PublicSuffix) in p then p[Base(c, PublicSuffix)]
    else if HasSuffix(c, TrafficSuffix) && Base(c, TrafficSuffix) in q then q[Base(c, TrafficSuffix)]
    else Null
  }

  /** One row of the unified frame, from a matching public and traffic row. */
  function MergeRow(p: Row, q: Row): (u: Row)
    requires RouteId in p && Timestamp in p && p[Timestamp].Time?
    ensures u.Keys == UnifiedColumns(p.Keys, q.Keys)
  {
    map c | c in UnifiedColumns(p.Keys, q.Keys) :: Pick(p, q, c)
  }

  lemma TaggedLabelsDistinct(c: Column, d: Column)
    ensures c + PublicSuffix != d + TrafficSuffix
    ensures c + PublicSuffix != RouteId && c + PublicSuffix != EventHour
    ensures c + TrafficSuffix != RouteId && c + TrafficSuffix != EventHour
    ensures HasSuffix(c + PublicSuffix, PublicSuffix) && Base(c + PublicSuffix, PublicSuffix) == c
    ensures HasSuffix(c + TrafficSuffix, TrafficSuffix) && Base(c + TrafficSuffix, TrafficSuffix) == c
    ensures !HasSuffix(c + TrafficSuffix, PublicSuffix)
  {
    var a := c + PublicSuffix;
    var b := d + TrafficSuffix;
    assert a[|a| - 7] == '_';
    if |a| == |b| {
      assert b[|b| - 7] == 't';
    }
    assert a[|a| - 1] == 'c';
    assert (c + TrafficSuffix)[|c + TrafficSuffix| - 1] == 'c';
    assert (c + PublicSuffix)[|c + PublicSuffix| - |PublicSuffix|..] == PublicSuffix;
    assert (c + TrafficSuffix)[|c + TrafficSuffix| - |TrafficSuffix|..] == TrafficSuffix;
    assert (c + TrafficSuffix)[|c + TrafficSuffix| - 7] == 't';
  }

  /** The index pairs of the inner join, left-major. */
  function JoinIndex(pub: Table, traf: Table): (ps: seq<(nat, nat)>)
    requires Bucketable(pub) && Bucketable(traf)
    ensures forall a :: 0 <= a < |ps| ==> ps[a].0 < |pub.rows| && ps[a].1 < |traf.rows|
    ensures StrictlyIncreasing(ps)
    ensures forall i: nat, j: nat :: (i, j) in ps <==>
              && i < |pub.rows| && j < |traf.rows|
              && pub.rows[i][RouteId] == traf.rows[j][RouteId]
              && HourFloor(pub.rows[i][Timestamp].ns) == HourFloor(traf.rows[j][Timestamp].ns)
  {
    JoinPairs(KeysOf(pub), KeysOf(traf), |pub.rows|)
  }

  /** The merged rows for a list of index pairs. */
  function MergeAll(pub: Table, traf: Table, ps: seq<(nat, nat)>): (rows: seq<Row>)
    requires Bucketable(pub) && Bucketable(traf)
    requires forall a :: 0 <= a < |ps| ==> ps[a].0 < |pub.rows| && ps[a].1 < |traf.rows|
    ensures |rows| == |ps|
    ensures forall k :: 0 <= k < |ps| ==> rows[k] == MergeRow(pub.rows[ps[k].0], traf.rows[ps[k].1])
    ensures forall k :: 0 <= k < |ps| ==> rows[k].Keys == UnifiedColumns(pub.columns, traf.columns)
  {
    seq(|ps|, k requires 0 <= k < |ps| => MergeRow(pub.rows[ps[k].0], traf.rows[ps[k].1]))
  }

  /** `build_unified_table(pub_df, traf_df)`. */
  function BuildUnified(pub: Table, traf: Table): (u: Table)
    requires Bucketable(pub) && Bucketable(traf)
    requires NoNameClash(pub.columns, traf.columns)
    ensures u.columns == UnifiedColumns(pub.columns, traf.columns)
    ensures WellFormed(u)
    ensures |u.rows| == |JoinIndex(pub, traf)|
    ensures forall k :: 0 <= k < |u.rows| ==>
              var q := JoinIndex(pub, traf)[k];
              u.rows[k] == MergeRow(pub.rows[q.0], traf.rows[q.1])
  {
    Table(UnifiedColumns(pub.columns, traf.columns), MergeAll(pub, traf, JoinIndex(pub, traf)))
  }

  /** Provenance: every label of either side survives, a label on both sides
      under both suffixed names with each side's own value, and the bucket
      under `event_hour`. */
  lemma MergeRowValues(p: Row, q: Row)
    requires RouteId in p && Timestamp in p && p[Timestamp].Time?
    requires NoNameClash(p.Keys, q.Keys)
    ensures var u := MergeRow(p, q);
      && u[RouteId] == p[RouteId]
      && u[EventHour] == Time(HourFloor(p[Timestamp].ns))
      && (forall c :: c in LeftOnly(p.Keys, q.Keys) ==> u[c] == p[c])
      && (forall c :: c in RightOnly(p.Keys, q.Keys) ==> u[c] == q[c])
      && (forall c :: c in Shared(p.Keys, q.Keys) ==> u[c + PublicSuffix] == p[c] && u[c + TrafficSuffix] == q[c])
  {
    var pc := p.Keys;
    var tc := q.Keys;
    var u := MergeRow(p, q);
    forall c | c in LeftOnly(pc, tc)
      ensures u[c] == p[c]
    {
      assert c in UnifiedColumns(pc, tc);
      assert c != EventHour && c != RouteId;
    }
    forall c | c in RightOnly(pc, tc)
      ensures u[c] == q[c]
    {
      assert c in UnifiedColumns(pc, tc);
      assert c != EventHour && c != RouteId;
    }
    forall c | c in Shared(pc, tc)
      ensures u[c + PublicSuffix] == p[c] && u[c + TrafficSuffix] == q[c]
    {
      TaggedLabelsDistinct(c, c);
      assert c + PublicSuffix in UnifiedColumns(pc, tc);
      assert c + TrafficSuffix in UnifiedColumns(pc, tc);
    }
  }

  /** The inner join's size: the sum over the distinct keys k of
      |public rows with key k| * |traffic rows with key k|; nothing is
      deduplicated, and a key missing on either side contributes nothing. */
  lemma JoinCardinality(pub: Table, traf: Table)
    requires Bucketable(pub) && Bucketable(traf)
    requires NoNameClash(pub.columns, traf.columns)
    ensures var kp := KeysOf(pub);
      var kt := KeysOf(traf);
      |BuildUnified(pub, traf).rows| == GroupProducts(Distinct(kp), kp, kt)
  {
    var kp := KeysOf(pub);
    var kt := KeysOf(traf);
    assert kp[..|pub.rows|] == kp;
    MatchTotalByGroups(kp, kt);
  }

  /** For one matching pair, both timestamps survive under their suffixed
      labels and `event_hour` is the bucket they share. */
  lemma MergedTimestamps(p: Row, q: Row)
    requires RouteId in p && Timestamp in p && p[Timestamp].Time?
    requires RouteId in q && Timestamp in q && q[Timestamp].Time?
    requires KeyOf(p) == KeyOf(q)
    requires NoNameClash(p.Keys, q.Keys)
    ensures var u := MergeRow(p, q);
      && TimestampPublic in u && TimestampTraffic in u && EventHour in u
      && u[TimestampPublic] == p[Timestamp]
      && u[TimestampTraffic] == q[Timestamp]
      && u[EventHour] == Time(HourFloor(p[Timestamp].ns))
      && u[EventHour] == Time(HourFloor(q[Timestamp].ns))
  {
    var u := MergeRow(p, q);
    var pc := p.Keys;
    var tc := q.Keys;
    assert Timestamp in Shared(pc, tc);
    assert TimestampPublic == Timestamp + PublicSuffix;
    assert TimestampTraffic == Timestamp + TrafficSuffix;
    assert TimestampPublic in UnifiedColumns(pc, tc);
    assert TimestampTraffic in UnifiedColumns(pc, tc);
    assert u[TimestampPublic] == Pick(p, q, TimestampPublic);
    assert u[TimestampTraffic] == Pick(p, q, TimestampTraffic);
    assert HasSuffix(TimestampPublic, PublicSuffix) && Base(TimestampPublic, PublicSuffix) == Timestamp;
    assert !HasSuffix(TimestampTraffic, PublicSuffix);
    assert HasSuffix(TimestampTraffic, TrafficSuffix) && Base(TimestampTraffic, TrafficSuffix) == Timestamp;
  }

  /** Every unified row's `event_hour` is the hour floor of both the public
      and the traffic timestamp it was built from. */
  lemma EventHourIsBucketOfBoth(pub: Table, traf: Table)
    requires Bucketable(pub) && Bucketable(traf)
    requires NoNameClash(pub.columns, traf.columns)
    ensures var u := BuildUnified(pub, traf);
      forall k :: 0 <= k < |u.rows| ==>
        && TimestampPublic in u.rows[k] && TimestampTraffic in u.rows[k] && EventHour in u.rows[k]
        && u.rows[k][TimestampPublic].Time?
        && u.rows[k][TimestampTraffic].Time?
        && u.rows[k][EventHour] == Time(HourFloor(u.rows[k][TimestampPublic].ns))
        && u.rows[k][EventHour] == Time(HourFloor(u.rows[k][TimestampTraffic].ns))
  {
    var u := BuildUnified(pub, traf);
    var ps := JoinIndex(pub, traf);
    forall k | 0 <= k < |u.rows|
      ensures TimestampPublic in u.rows[k] && TimestampTraffic in u.rows[k] && EventHour in u.rows[k]
      ensures u.rows[k][TimestampPublic].Time? && u.rows[k][TimestampTraffic].Time?
      ensures u.rows[k][EventHour] == Time(HourFloor(u.rows[k][TimestampPublic].ns))
      ensures u.rows[k][EventHour] == Time(HourFloor(u.rows[k][TimestampTraffic].ns))
    {
      var p := pub.rows[ps[k].0];
      var q := traf.rows[ps[k].1];
      assert ps[k] in ps;
      assert p.Keys == pub.columns && q.Keys == traf.columns;
      MergedTimestamps(p, q);
    }
  }

  /** A label that does not end in `c` is not a suffixed label. */
  lemma UntaggedLabel(x: Column, cs: set<Column>)
    requires |x| > 0 && x[|x| - 1] != 'c'
    ensures x !in Suffixed(cs, PublicSuffix) && x !in Suffixed(cs, TrafficSuffix)
  {
    forall d | d in cs
      ensures x != d + PublicSuffix && x != d + TrafficSuffix
    {
      assert (d + PublicSuffix)[|d + PublicSuffix| - 1] == 'c';
      assert (d + TrafficSuffix)[|d + TrafficSuffix| - 1] == 'c';
    }
  }

  /** A numeric label of the unified frame is one carried over unsuffixed. */
  lemma NumericLabelOrigin(pc: set<Column>, tc: set<Column>, c: Column)
    requires c in NumericColumns && c in UnifiedColumns(pc, tc)
    ensures c in LeftOnly(pc, tc) || c in RightOnly(pc, tc)
  {
    UntaggedLabel(c, Shared(pc, tc));
  }

  lemma MergeRowNumber(p: Row, q: Row, c: Column)
    requires RouteId in p && Timestamp in p && p[Timestamp].Time?
    requires c in NumericColumns && c in UnifiedColumns(p.Keys, q.Keys)
    requires c in p ==> p[c].Num?
    requires c in q ==> q[c].Num?
    ensures MergeRow(p, q)[c].Num?
  {
    NumericLabelOrigin(p.Keys, q.Keys, c);
    assert MergeRow(p, q)[c] == Pick(p, q, c);
  }

  /** The join keeps the cleaner's guarantee: a numeric column of the unified
      frame comes unsuffixed from one side, where it held numbers. */
  lemma UnifiedKeepsNumbers(pub: Table, traf: Table)
    requires Bucketable(pub) && Bucketable(traf)
    requires NoNameClash(pub.columns, traf.columns)
    requires NumericCells(pub) && NumericCells(traf)
    ensures NumericCells(BuildUnified(pub, traf))
  {
    var u := BuildUnified(pub, traf);
    var ps := JoinIndex(pub, traf);
    forall k, c | 0 <= k < |u.rows| && c in NumericColumns && c in u.columns
      ensures u.rows[k][c].Num?
    {
      var p := pub.rows[ps[k].0];
      var q := traf.rows[ps[k].1];
      assert p.Keys == pub.columns && q.Keys == traf.columns;
      MergeRowNumber(p, q, c);
    }
  }

  /** An inner join with an empty side has no rows. */
  lemma EmptySideJoinsNothing(pub: Table, traf: Table)
    requires Bucketable(pub) && Bucketable(traf) && NoNameClash(pub.columns, traf.columns)
    requires |pub.rows| == 0 || |traf.rows| == 0
    ensures |BuildUnified(pub, traf).rows| == 0
  {
    NoPairsWithEmptySide(KeysOf(pub), KeysOf(traf), |pub.rows|);
  }
}

=== FILE: keys.dfy ===
/** Key bookkeeping shared by the join and the summary: occurrence counts,
    distinct keys in first-appearance order, and the index pairs an inner
    equi-join produces.  Everything here is generic in the key type. */
module Keys {

  /** Number of occurrences of `k` in `ks`. */
  function Count<K(==)>(ks: seq<K>, k: K): (n: nat)
    ensures n <= |ks|
    ensures n == 0 <==> k !in ks
  {
    if |ks| == 0 then 0
    else
      assert ks == ks[..|ks| - 1] + [ks[|ks| - 1]];
      Count(ks[..|ks| - 1], k) + (if ks[|ks| - 1] == k then 1 else 0)
  }

  predicate NoDuplicates<K(==)>(ks: seq<K>) {
    forall i, j :: 0 <= i < j < |ks| ==> ks[i] != ks[j]
  }

  /** The distinct keys of `ks`, each once, in order of first appearance. */
  function Distinct<K(==, !new)>(ks: seq<K>): (ds: seq<K>)
    ensures NoDuplicates(ds)
    ensures forall k :: k in ds <==> k in ks
    ensures |ds| <= |ks|
  {
    if |ks| == 0 then []
    else
      assert ks == ks[..|ks| - 1] + [ks[|ks| - 1]];
      var prefix := Distinct(ks[..|ks| - 1]);
      var last := ks[|ks| - 1];
      if last in prefix then prefix else prefix + [last]
  }

  /** Lexicographic order on index pairs. */
  predicate Before(a: (nat, nat), b: (nat, nat)) {
    a.0 < b.0 || (a.0 == b.0 && a.1 < b.1)
  }

  predicate StrictlyIncreasing(ps: seq<(nat, nat)>) {
    forall a, b :: 0 <= a < b < |ps| ==> Before(ps[a], ps[b])
  }

  /** The pairs (i, j) with j < m whose keys agree, for one left index i. */
  function MatchesOf<K(==)>(ks: seq<K>, kt: seq<K>, i: nat, m: nat): (ps: seq<(nat, nat)>)
    requires i < |ks| && m <= |kt|
    ensures forall q :: q in ps <==> q.0 == i && q.1 < m && ks[i] == kt[q.1]
    ensures forall a :: 0 <= a < |ps| ==> ps[a].0 == i && ps[a].1 < m
    ensures StrictlyIncreasing(ps)
    ensures |ps| == Count(kt[..m], ks[i])
  {
    if m == 0 then []
    else
      assert kt[..m][..m - 1] == kt[..m - 1];
      MatchesOf(ks, kt, i, m - 1) + (if ks[i] == kt[m - 1] then [(i, m - 1)] else [])
  }

  /** Sum over the first keys of `ks` of how often each occurs in `kt`. */
  function MatchTotal<K(==)>(ks: seq<K>, kt: seq<K>): nat {
    if |ks| == 0 then 0
    else MatchTotal(ks[..|ks| - 1], kt) + Count(kt, ks[|ks| - 1])
  }

  /** Index pairs of an inner equi-join of the first `n` left keys with all
      right keys: left-major, each matching pair exactly once. */
  function JoinPairs<K(==)>(ks: seq<K>, kt: seq<K>, n: nat): (ps: seq<(nat, nat)>)
    requires n <= |ks|
    ensures forall q :: q in ps <==> q.0 < n && q.1 < |kt| && ks[q.0] == kt[q.1]
    ensures forall a :: 0 <= a < |ps| ==> ps[a].0 < n && ps[a].1 < |kt|
    ensures StrictlyIncreasing(ps)
    ensures |ps| == MatchTotal(ks[..n], kt)
  {
    if n == 0 then []
    else
      var prefix := JoinPairs(ks, kt, n - 1);
      var last := MatchesOf(ks, kt, n - 1, |kt|);
      assert kt[..|kt|] == kt;
      assert ks[..n][..n - 1] == ks[..n - 1];
      prefix + last
  }

  /** A join with no left keys, or no right keys, pairs nothing. */
  lemma {:induction false} NoPairsWithEmptySide<K>(ks: seq<K>, kt: seq<K>, n: nat)
    requires n <= |ks| && (n == 0 || |kt| == 0)
    ensures JoinPairs(ks, kt, n) == []
  {
    if n > 0 {
      NoPairsWithEmptySide(ks, kt, n - 1);
      assert MatchesOf(ks, kt, n - 1, |kt|) == [];
    }
  }

  /** Sum over the keys `ds` of the product of their multiplicities in `ks` and `kt`. */
  function GroupProducts<K(==)>(ds: seq<K>, ks: seq<K>, kt: seq<K>): nat {
    if |ds| == 0 then 0
    else GroupProducts(ds[..|ds| - 1], ks, kt) + Count(ks, ds[|ds| - 1]) * Count(kt, ds[|ds| - 1])
  }

  lemma CountSnoc<K>(ks: seq<K>, x: K, k: K)
    ensures Count(ks + [x], k) == Count(ks, k) + (if x == k then 1 else 0)
  {
    assert (ks + [x])[..|ks|] == ks;
  }

  /** Appending one key to the left side adds that key's right multiplicity
      to the group products, provided the key is among the groups. */
  lemma {:induction false} GroupProductsSnoc<K>(ds: seq<K>, ks: seq<K>, x: K, kt: seq<K>)
    requires NoDuplicates(ds)
    ensures GroupProducts(ds, ks + [x], kt)
         == GroupProducts(ds, ks, kt) + (if x in ds then Count(kt, x) else 0)
  {
    if |ds| > 0 {
      var front := ds[..|ds| - 1];
      var d := ds[|ds| - 1];
      assert ds == front + [d];
      assert NoDuplicates(front);
      GroupProductsSnoc(front, ks, x, kt);
      LastGroup(ks, x, d, kt);
      assert x in ds <==> x in front || x == d;
      assert x == d ==> x !in front;
    }
  }

  /** The last group's product grows by the right multiplicity when the
      appended key is that group's key. */
  lemma LastGroup<K>(ks: seq<K>, x: K, d: K, kt: seq<K>)
    ensures Count(ks + [x], d) * Count(kt, d)
         == Count(ks, d) * Count(kt, d) + (if x == d then Count(kt, d) else 0)
  {
    CountSnoc(ks, x, d);
    if x == d {
      ProductSplit(Count(ks, d), 1, Count(kt, d));
    }
  }

  /** Multiplication distributes over addition (kept apart so that the
      nonlinear step is proved on its own). */
  lemma ProductSplit(a: nat, b: nat, c: nat)
    ensures (a + b) * c == a * c + b * c
  {
  }

  /** The size of an inner equi-join regrouped by key: the sum over the
      distinct left keys of |left group| * |right group|. */
  lemma {:induction false} MatchTotalByGroups<K(!new)>(ks: seq<K>, kt: seq<K>)
    ensures MatchTotal(ks, kt) == GroupProducts(Distinct(ks), ks, kt)
  {
    if |ks| > 0 {
      var front := ks[..|ks| - 1];
      var x := ks[|ks| - 1];
      assert ks == front + [x];
      MatchTotalByGroups(front, kt);
      assert MatchTotal(ks, kt) == MatchTotal(front, kt) + Count(kt, x);
      var ds := Distinct(front);
      GroupProductsSnoc(ds, front, x, kt);
      if x in ds {
        assert Distinct(ks) == ds;
      } else {
        var grown := ds + [x];
        assert Distinct(ks) == grown;
        assert grown[..|grown| - 1] == ds;
        CountSnoc(front, x, x);
        assert Count(ks, x) == 1;
        assert GroupProducts(grown, ks, kt) == GroupProducts(ds, ks, kt) + 1 * Count(kt, x);
      }
    }
  }
}

=== FILE: pipeline.dfy ===
/** `run_pipeline` (scripts/etl_pipeline.py:174-212) with its I/O reduced to
    a record of what it writes: load both feeds, clean both, join them, write
    the unified table to CSV and to the database, then write the summary.
    An exception ends the run where it is raised, keeping the writes made
    before it. */
module Pipeline {
  import opened Frames
  import opened Schema
  import opened Cleaner
  import opened Join
  import opened Summary

  const DatabaseTableName: string := "transport_traffic"

  datatype Failure =
    | BadSchema(violation: SchemaViolation)
      /** `pd.merge` refuses to match numeric route ids against strings. */
    | KeyTypeMismatch(publicStorage: Storage, trafficStorage: Storage)
      /** The join would produce a label twice (see `NoNameClash`). */
    | NameClash(publicColumns: set<Column>, trafficColumns: set<Column>)
      /** The summary selects labels the unified table does not carry. */
    | SummaryKeyError(missing: set<Column>)

  /** What the run persists: the unified CSV, the database table, the report. */
  datatype Output =
    | UnifiedCsv(table: Table)
    | DatabaseTable(name: string, table: Table)
    | ReportCsv(report: seq<SummaryRow>)

  datatype Status = Completed | Failed(failure: Failure)

  datatype Run = Run(writes: seq<Output>, status: Status)

  /** The labels of the public frame after loading. */
  function LoadedPublicColumns(pc: set<Column>): set<Column> {
    pc - {Timing} + {Timestamp}
  }

  /** How a run ends, decided from the input labels and the verdict of the
      merge's key check.  The merge checks its keys before it builds any
      label, so a key failure is reported ahead of a name clash. */
  function Outcome(pc: set<Column>, tc: set<Column>, keys: KeyCheck, cityCol: Column): Status {
    if !(PublicRequired <= pc) then Failed(BadSchema(MissingColumns(PublicFeed, PublicRequired - pc)))
    else if !(TrafficRequired <= tc) then Failed(BadSchema(MissingColumns(TrafficFeed, TrafficRequired - tc)))
    else if keys.KeysIncompatible? then Failed(KeyTypeMismatch(keys.publicStorage, keys.trafficStorage))
    else
      var lp := LoadedPublicColumns(pc);
      if !NoNameClash(lp, tc) then Failed(NameClash(lp, tc))
      else
        var uc := UnifiedColumns(lp, tc);
        if !(SummaryColumns(cityCol) <= uc) then Failed(SummaryKeyError(SummaryColumns(cityCol) - uc))
        else Completed
  }

  /** The loaded public feed after cleaning. */
  function CleanedPublic(pub: Table, p: Parsers): (t: Table)
    requires WellFormed(pub) && PublicNormalized <= pub.columns
    ensures Bucketable(t) && NumericCells(t)
    ensures t.columns == pub.columns
  {
    assert Timestamp in PublicNormalized && RouteId in PublicNormalized;
    Clean(pub, Timestamp, p)
  }

  /** The loaded traffic feed after cleaning. */
  function CleanedTraffic(traf: Table, p: Parsers): (t: Table)
    requires WellFormed(traf) && TrafficRequired <= traf.columns
    ensures Bucketable(t) && NumericCells(t)
    ensures t.columns == traf.columns
  {
    assert Timestamp in TrafficRequired && RouteId in TrafficRequired;
    Clean(traf, Timestamp, p)
  }

  /** The unified table `build_unified_table` makes from the two loaded
      feeds once they are cleaned. */
  function Unified(pub: Table, traf: Table, p: Parsers): (u: Table)
    requires WellFormed(pub) && PublicNormalized <= pub.columns
    requires WellFormed(traf) && TrafficRequired <= traf.columns
    requires NoNameClash(pub.columns, traf.columns)
    ensures WellFormed(u) && NumericCells(u)
    ensures u.columns == UnifiedColumns(pub.columns, traf.columns)
  {
    UnifiedKeepsNumbers(CleanedPublic(pub, p), CleanedTraffic(traf, p));
    BuildUnified(CleanedPublic(pub, p), CleanedTraffic(traf, p))
  }

  /** The merge's key check in a run: each feed's route-id storage as read,
      against the route ids of the rows that survive cleaning.  It matters
      only once both schemas pass. */
  function KeyCheckOf(rawPub: Table, rawTraf: Table, p: Parsers): KeyCheck
    requires WellFormed(rawPub) && WellFormed(rawTraf)
  {
    if !(PublicRequired <= rawPub.columns && TrafficRequired <= rawTraf.columns) then KeysCompatible
    else
      assert Timing in PublicRequired;
      var pub := RenameColumn(rawPub, Timing, Timestamp);
      CheckMergeKeys(StorageOf(RouteCells(rawPub)), RouteCells(CleanedPublic(pub, p)),
                     StorageOf(RouteCells(rawTraf)), RouteCells(CleanedTraffic(rawTraf, p)))
  }

  /** `create_summary_report` on a table that carries the labels it selects. */
  function ReportOf(u: Table, cityCol: Column): (rep: seq<SummaryRow>)
    requires WellFormed(u) && NumericCells(u) && SummaryColumns(cityCol) <= u.columns
    ensures Summarizable(u, cityCol) && rep == Summarize(u, cityCol)
  {
    NumbersFromCells(u, Ridership);
    NumbersFromCells(u, CongestionIndex);
    Summarize(u, cityCol)
  }

  /** The writes after the join: the unified table twice, then the report
      unless its labels are missing. */
  function Persist(u: Table, cityCol: Column): (run: Run)
    requires WellFormed(u) && NumericCells(u)
    ensures run.status.Completed? <==> SummaryColumns(cityCol) <= u.columns
    ensures run.status.Failed? ==> run.status == Failed(SummaryKeyError(SummaryColumns(cityCol) - u.columns))
    ensures |run.writes| >= 2
    ensures run.writes[0] == UnifiedCsv(u) && run.writes[1] == DatabaseTable(DatabaseTableName, u)
    ensures |run.writes| == if run.status.Completed? then 3 else 2
  {
    var stored := [UnifiedCsv(u), DatabaseTable(DatabaseTableName, u)];
    if !(SummaryColumns(cityCol) <= u.columns) then
      Run(stored, Failed(SummaryKeyError(SummaryColumns(cityCol) - u.columns)))
    else
      Run(stored + [ReportCsv(ReportOf(u, cityCol))], Completed)
  }

  /** One run of the pipeline, grouping the summary by `cityCol`. */
  function RunWith(rawPub: Table, rawTraf: Table, p: Parsers, cityCol: Column): (run: Run)
    requires WellFormed(rawPub) && WellFormed(rawTraf)
    ensures run.status == Outcome(rawPub.columns, rawTraf.columns, KeyCheckOf(rawPub, rawTraf, p), cityCol)
    ensures run.status.Failed? && !run.status.failure.SummaryKeyError? ==> run.writes == []
    ensures run.status.Failed? && run.status.failure.SummaryKeyError? ==> |run.writes| == 2
    ensures run.status.Completed? ==> |run.writes| == 3
  {
    match LoadPublic(rawPub)
    case Err(e) => Run([], Failed(BadSchema(e)))
    case Ok(pub) =>
      match LoadTraffic(rawTraf)
      case Err(e) => Run([], Failed(BadSchema(e)))
      case Ok(traf) =>
        var keys := CheckMergeKeys(StorageOf(RouteCells(rawPub)), RouteCells(CleanedPublic(pub, p)),
                                   StorageOf(RouteCells(traf)), RouteCells(CleanedTraffic(traf, p)));
        if keys.KeysIncompatible? then
          Run([], Failed(KeyTypeMismatch(keys.publicStorage, keys.trafficStorage)))
        else if !NoNameClash(pub.columns, traf.columns) then
          Run([], Failed(NameClash(pub.columns, traf.columns)))
        else
          Persist(Unified(pub, traf, p), cityCol)
  }

  /** Once both schemas pass and the labels do not clash, the unified table
      goes to the CSV file and then to the database, and only then is the
      report attempted; a completed run's third write is the report. */
  lemma UnifiedWrittenFirst(rawPub: Table, rawTraf: Table, p: Parsers, cityCol: Column)
    requires WellFormed(rawPub) && PublicRequired <= rawPub.columns
    requires WellFormed(rawTraf) && TrafficRequired <= rawTraf.columns
    requires KeyCheckOf(rawPub, rawTraf, p) == KeysCompatible
    requires NoNameClash(LoadedPublicColumns(rawPub.columns), rawTraf.columns)
    ensures var run := RunWith(rawPub, rawTraf, p, cityCol);
      var u := Unified(RenameColumn(rawPub, Timing, Timestamp), rawTraf, p);
      && |run.writes| >= 2
      && run.writes[0] == UnifiedCsv(u)
      && run.writes[1] == DatabaseTable(DatabaseTableName, u)
      && (run.status.Completed? ==> Summarizable(u, cityCol) && run.writes[2] == ReportCsv(Summarize(u, cityCol)))
  {
    assert LoadPublic(rawPub).Ok? && LoadTraffic(rawTraf).Ok?;
  }

  /** `c` with the public suffix is a label of the unified frame's suffixed
      public part exactly when `c` is in the suffixed set. */
  lemma PublicTagged(c: Column, cs: set<Column>)
    ensures c + PublicSuffix in Suffixed(cs, PublicSuffix) <==> c in cs
    ensures c + PublicSuffix !in Suffixed(cs, TrafficSuffix)
  {
    forall d | d in cs
      ensures c + PublicSuffix == d + PublicSuffix ==> c == d
      ensures c + PublicSuffix != d + TrafficSuffix
    {
      TaggedLabelsDistinct(c, d);
      TaggedLabelsDistinct(d, c);
    }
  }

  /** The labels of inputs carrying exactly the required labels: only
      `timestamp` is shared, and the join's labels do not clash. */
  lemma RequiredShared()
    ensures LoadedPublicColumns(PublicRequired) == PublicNormalized
    ensures Shared(PublicNormalized, TrafficRequired) == {Timestamp}
    ensures NoNameClash(PublicNormalized, TrafficRequired)
  {
    assert Timestamp + PublicSuffix == TimestampPublic;
    assert Timestamp + TrafficSuffix == TimestampTraffic;
  }

  /** With exactly the required input labels the summary, grouping by
      `city_public`, fails: `city` is on the public side only, so the join
      leaves it unsuffixed.  The unified table has already been written to
      the CSV file and to the database. */
  lemma AsWrittenSummaryFails(rawPub: Table, rawTraf: Table, p: Parsers)
    requires WellFormed(rawPub) && WellFormed(rawTraf)
    requires rawPub.columns == PublicRequired && rawTraf.columns == TrafficRequired
    requires KeyCheckOf(rawPub, rawTraf, p) == KeysCompatible
    ensures var run := RunWith(rawPub, rawTraf, p, CityPublic);
      run.status == Failed(SummaryKeyError({CityPublic})) && |run.writes| == 2
  {
    RequiredShared();
    RequiredLacksCityPublic();
    var o := Outcome(rawPub.columns, rawTraf.columns, KeyCheckOf(rawPub, rawTraf, p), CityPublic);
    assert o == Failed(SummaryKeyError({CityPublic}));
  }

  /** On the required labels the unified frame has every label the summary
      selects except `city_public`. */
  lemma RequiredLacksCityPublic()
    ensures SummaryColumns(CityPublic) - UnifiedColumns(PublicNormalized, TrafficRequired) == {CityPublic}
  {
    RequiredShared();
    var uc := UnifiedColumns(PublicNormalized, TrafficRequired);
    PublicTagged(City, {Timestamp});
    assert CityPublic == City + PublicSuffix;
    assert CityPublic !in uc;
    assert {RouteId, BusStop, Ridership, CongestionIndex} <= uc;
  }

  /** The label under which the unified frame carries the public feed's
      city: suffixed exactly when the traffic feed has a `city` as well. */
  function PublicCityColumn(tc: set<Column>): Column {
    if City in tc then CityPublic else City
  }

  /** The run with the summary grouping by the public city's actual label. */
  function RunCorrected(rawPub: Table, rawTraf: Table, p: Parsers): Run
    requires WellFormed(rawPub) && WellFormed(rawTraf)
  {
    RunWith(rawPub, rawTraf, p, PublicCityColumn(rawTraf.columns))
  }

  /** With the public city's actual label, the summary finds all its labels
      exactly when no other selected label was suffixed by the join. */
  lemma CorrectedLabels(lp: set<Column>, tc: set<Column>)
    requires PublicNormalized <= lp && TrafficRequired <= tc
    ensures (SummaryColumns(PublicCityColumn(tc)) <= UnifiedColumns(lp, tc))
        <==> (BusStop !in tc && Ridership !in tc && CongestionIndex !in lp)
  {
    var uc := UnifiedColumns(lp, tc);
    var sh := Shared(lp, tc);
    UntaggedLabel(BusStop, sh);
    UntaggedLabel(Ridership, sh);
    UntaggedLabel(CongestionIndex, sh);
    if City in tc {
      PublicTagged(City, sh);
      assert City + PublicSuffix == CityPublic;
      assert CityPublic in uc;
    } else {
      assert City in LeftOnly(lp, tc);
    }
    assert RouteId in uc;
    assert BusStop in tc ==> BusStop !in uc;
    assert Ridership in tc ==> Ridership !in uc;
    assert CongestionIndex in lp ==> CongestionIndex !in uc;
  }

  /** The corrected run completes, writing the unified table twice and the
      report, exactly when both schemas pass, the merge's key check
      passes, the join's labels do not clash, and bus stop, ridership
      and congestion each come from one side only. */
  lemma CorrectedCompletes(rawPub: Table, rawTraf: Table, p: Parsers)
    requires WellFormed(rawPub) && WellFormed(rawTraf)
    ensures var run := RunCorrected(rawPub, rawTraf, p);
      (run.status == Completed)
        <==> (&& PublicRequired <= rawPub.columns && TrafficRequired <= rawTraf.columns
              && KeyCheckOf(rawPub, rawTraf, p) == KeysCompatible
              && NoNameClash(LoadedPublicColumns(rawPub.columns), rawTraf.columns)
              && BusStop !in rawTraf.columns && Ridership !in rawTraf.columns
              && CongestionIndex !in rawPub.columns)
    ensures RunCorrected(rawPub, rawTraf, p).status == Completed ==> |RunCorrected(rawPub, rawTraf, p).writes| == 3
  {
    var pc := rawPub.columns;
    var tc := rawTraf.columns;
    if PublicRequired <= pc && TrafficRequired <= tc {
      var lp := LoadedPublicColumns(pc);
      assert PublicNormalized <= lp;
      assert CongestionIndex in lp <==> CongestionIndex in pc;
      CorrectedLabels(lp, tc);
    }
  }

  /** On inputs with exactly the required labels that pass the merge's key
      check the corrected run completes. */
  lemma CorrectedRequired(rawPub: Table, rawTraf: Table, p: Parsers)
    requires WellFormed(rawPub) && WellFormed(rawTraf)
    requires rawPub.columns == PublicRequired && rawTraf.columns == TrafficRequired
    requires KeyCheckOf(rawPub, rawTraf, p) == KeysCompatible
    ensures RunCorrected(rawPub, rawTraf, p).status == Completed
  {
    RequiredShared();
    assert BusStop !in TrafficRequired && Ridership !in TrafficRequired;
    assert CongestionIndex !in PublicRequired;
    CorrectedCompletes(rawPub, rawTraf, p);
  }

  /** Past both schema gates, the run stops at the merge exactly when the
      key check fails, and then it has written nothing. */
  lemma MergeKeyFailureWritesNothing(rawPub: Table, rawTraf: Table, p: Parsers, cityCol: Column)
    requires WellFormed(rawPub) && PublicRequired <= rawPub.columns
    requires WellFormed(rawTraf) && TrafficRequired <= rawTraf.columns
    ensures var run := RunWith(rawPub, rawTraf, p, cityCol);
      && (run.status.Failed? && run.status.failure.KeyTypeMismatch?
          <==> KeyCheckOf(rawPub, rawTraf, p).KeysIncompatible?)
      && (KeyCheckOf(rawPub, rawTraf, p).KeysIncompatible? ==> run.writes == [])
  {
  }

  /** When cleaning leaves one feed without rows, the key check is skipped
      whatever the route ids were: the merge comes back empty and, labels
      permitting, the unified table is still written twice. */
  lemma EmptiedFeedSkipsKeyCheck(rawPub: Table, rawTraf: Table, p: Parsers, cityCol: Column)
    requires WellFormed(rawPub) && PublicRequired <= rawPub.columns
    requires WellFormed(rawTraf) && TrafficRequired <= rawTraf.columns
    requires var pub := RenameColumn(rawPub, Timing, Timestamp);
      |CleanedPublic(pub, p).rows| == 0 || |CleanedTraffic(rawTraf, p).rows| == 0
    ensures KeyCheckOf(rawPub, rawTraf, p) == KeysCompatible
    ensures var pub := RenameColumn(rawPub, Timing, Timestamp);
      NoNameClash(pub.columns, rawTraf.columns) ==>
        && |Unified(pub, rawTraf, p).rows| == 0
        && |RunWith(rawPub, rawTraf, p, cityCol).writes| >= 2
  {
    assert Timing in PublicRequired;
    var pub := RenameColumn(rawPub, Timing, Timestamp);
    var cp := CleanedPublic(pub, p);
    var ct := CleanedTraffic(rawTraf, p);
    assert KeyCheckOf(rawPub, rawTraf, p)
        == CheckMergeKeys(StorageOf(RouteCells(rawPub)), RouteCells(cp), StorageOf(RouteCells(rawTraf)), RouteCells(ct));
    if NoNameClash(pub.columns, rawTraf.columns) {
      EmptySideJoinsNothing(cp, ct);
      assert LoadPublic(rawPub).Ok? && LoadTraffic(rawTraf).Ok?;
    }
  }

  /** A public feed read with numeric route ids, against a traffic feed
      stored as objects whose surviving route ids are all strings (for
      instance `[101, "101"]` where cleaning drops the row with `101`): when
      both sides keep rows, the run fails at the merge and writes nothing. */
  lemma StringsLeftAfterCleaning(rawPub: Table, rawTraf: Table, p: Parsers, cityCol: Column)
    requires WellFormed(rawPub) && PublicRequired <= rawPub.columns
    requires WellFormed(rawTraf) && TrafficRequired <= rawTraf.columns
    requires forall i :: 0 <= i < |rawPub.rows| ==> rawPub.rows[i][RouteId].Num? || rawPub.rows[i][RouteId].Null?
    requires exists i :: 0 <= i < |rawTraf.rows| && rawTraf.rows[i][RouteId].Text?
    requires var pub := RenameColumn(rawPub, Timing, Timestamp);
      |CleanedPublic(pub, p).rows| > 0 && |CleanedTraffic(rawTraf, p).rows| > 0
    requires var t := CleanedTraffic(rawTraf, p);
      forall k :: 0 <= k < |t.rows| ==> t.rows[k][RouteId].Text?
    ensures var run := RunWith(rawPub, rawTraf, p, cityCol);
      run.status == Failed(KeyTypeMismatch(NumericStorage, ObjectStorage)) && run.writes == []
  {
    assert Timing in PublicRequired;
    var pub := RenameColumn(rawPub, Timing, Timestamp);
    var cp := CleanedPublic(pub, p);
    var ct := CleanedTraffic(rawTraf, p);
    StoredAsNumbers(rawPub);
    StoredAsObjects(rawTraf);
    OnlyStrings(ct);
    assert KeyCheckOf(rawPub, rawTraf, p)
        == CheckMergeKeys(NumericStorage, RouteCells(cp), ObjectStorage, RouteCells(ct));
  }

  /** Route ids that are all numbers or missing are stored as numbers. */
  lemma StoredAsNumbers(t: Table)
    requires WellFormed(t) && RouteId in t.columns
    requires forall i :: 0 <= i < |t.rows| ==> t.rows[i][RouteId].Num? || t.rows[i][RouteId].Null?
    ensures StorageOf(RouteCells(t)) == NumericStorage
  {
    var cs := RouteCells(t);
    assert forall i :: 0 <= i < |cs| ==> cs[i] == t.rows[i][RouteId];
  }

  /** A single string among the route ids makes the column an object column. */
  lemma StoredAsObjects(t: Table)
    requires WellFormed(t) && RouteId in t.columns
    requires exists i :: 0 <= i < |t.rows| && t.rows[i][RouteId].Text?
    ensures StorageOf(RouteCells(t)) == ObjectStorage
  {
    var i :| 0 <= i < |t.rows| && t.rows[i][RouteId].Text?;
    assert RouteCells(t)[i].Text?;
  }

  /** Route ids that are all strings, in a frame with rows. */
  lemma OnlyStrings(t: Table)
    requires WellFormed(t) && RouteId in t.columns && |t.rows| > 0
    requires forall k :: 0 <= k < |t.rows| ==> t.rows[k][RouteId].Text?
    ensures var cs := RouteCells(t);
      && |cs| > 0
      && (exists k :: 0 <= k < |cs| && cs[k].Text?)
      && (forall k :: 0 <= k < |cs| ==> cs[k].Text? || cs[k].Null?)
  {
    var cs := RouteCells(t);
    assert cs[0].Text?;
  }

  /** A public CSV whose route ids all read as numbers, against a traffic
      feed whose route ids are all strings (`101` against `"101"`): when
      cleaning leaves rows on both sides, the run fails at the merge and
      writes nothing. */
  lemma NumericAgainstTextRouteIds(rawPub: Table, rawTraf: Table, p: Parsers, cityCol: Column)
    requires WellFormed(rawPub) && PublicRequired <= rawPub.columns
    requires WellFormed(rawTraf) && TrafficRequired <= rawTraf.columns
    requires forall i :: 0 <= i < |rawPub.rows| ==> rawPub.rows[i][RouteId].Num?
    requires forall i :: 0 <= i < |rawTraf.rows| ==> rawTraf.rows[i][RouteId].Text?
    requires var pub := RenameColumn(rawPub, Timing, Timestamp);
      |CleanedPublic(pub, p).rows| > 0 && |CleanedTraffic(rawTraf, p).rows| > 0
    ensures var run := RunWith(rawPub, rawTraf, p, cityCol);
      run.status == Failed(KeyTypeMismatch(NumericStorage, ObjectStorage)) && run.writes == []
  {
    CleanedStaysText(rawTraf, p);
    assert |rawTraf.rows| > 0 && rawTraf.rows[0][RouteId].Text?;
    StringsLeftAfterCleaning(rawPub, rawTraf, p, cityCol);
  }

  /** Cleaning keeps route ids, so a traffic feed whose route ids are all
      strings still has only strings after cleaning. */
  lemma CleanedStaysText(rawTraf: Table, p: Parsers)
    requires WellFormed(rawTraf) && TrafficRequired <= rawTraf.columns
    requires forall i :: 0 <= i < |rawTraf.rows| ==> rawTraf.rows[i][RouteId].Text?
    ensures |CleanedTraffic(rawTraf, p).rows| <= |rawTraf.rows|
    ensures var t := CleanedTraffic(rawTraf, p);
      forall k :: 0 <= k < |t.rows| ==> t.rows[k][RouteId].Text?
  {
    assert Timestamp in TrafficRequired && RouteId in TrafficRequired;
    CleanKeepsOtherColumn(rawTraf, Timestamp, p, RouteId);
  }
}

=== FILE: results.dfy ===
/** Wrappers used throughout the model: `Option` for the partial parsers and
    row coercions (failure-compatible, so `:-` threads a failed coercion
    through), `Result` for operations that raise. */
module Results {

  datatype Option<+T> = None | Some(value: T) {
    predicate IsFailure() {
      None?
    }

    function PropagateFailure<U>(): Option<U>
      requires None?
    {
      None
    }

    function Extract(): T
      requires Some?
    {
      value
    }
  }

  datatype Result<+T, +E> = Ok(value: T) | Err(error: E)
}

=== FILE: schema.dfy ===
/** The schema gate applied by the two loaders once the raw rows are in hand
    (scripts/etl_pipeline.py, `load_public_transport_csv` and
    `load_traffic_data`): the required labels must all be present, otherwise
    the load raises before any row is touched; the public feed additionally
    renames `timing` to `timestamp`. */
module Schema {
  import opened Results
  import opened Frames

  datatype Feed = PublicFeed | TrafficFeed

  /** The `ValueError` a loader raises, naming the labels it did not find. */
  datatype SchemaViolation = MissingColumns(feed: Feed, missing: set<Column>)

  const PublicRequired: set<Column> := {RouteId, City, BusStop, Ridership, Timing}
  const TrafficRequired: set<Column> := {RouteId, AvgSpeed, CongestionIndex, Timestamp}

  /** The public columns once `timing` carries its downstream name. */
  const PublicNormalized: set<Column> := {RouteId, City, BusStop, Ridership, Timestamp}

  /** `df.rename(columns={from: to})`: the column `from` is relabelled `to`;
      every other column and every row keeps its values. */
  function RenameColumn(t: Table, from: Column, to: Column): (r: Table)
    requires WellFormed(t) && from in t.columns
    ensures WellFormed(r)
    ensures r.columns == t.columns - {from} + {to}
    ensures |r.rows| == |t.rows|
    ensures forall i :: 0 <= i < |r.rows| ==> r.rows[i][to] == t.rows[i][from]
    ensures forall i, c :: 0 <= i < |r.rows| && c in t.columns && c != from && c != to ==>
              r.rows[i][c] == t.rows[i][c]
  {
    var rows := seq(|t.rows|, i requires 0 <= i < |t.rows| => (t.rows[i] - {from})[to := t.rows[i][from]]);
    Table(t.columns - {from} + {to}, rows)
  }

  /** Load-time validation of the public transport feed. */
  function LoadPublic(raw: Table): (r: Result<Table, SchemaViolation>)
    requires WellFormed(raw)
    ensures r.Err? <==> exists c :: c in PublicRequired && c !in raw.columns
    ensures r.Err? ==> r.error == MissingColumns(PublicFeed, PublicRequired - raw.columns)
    ensures r.Ok? ==> r.value == RenameColumn(raw, Timing, Timestamp)
    ensures r.Ok? ==> PublicNormalized <= r.value.columns
  {
    if !(PublicRequired <= raw.columns) then
      Err(MissingColumns(PublicFeed, PublicRequired - raw.columns))
    else
      assert Timing in PublicRequired;
      Ok(RenameColumn(raw, Timing, Timestamp))
  }

  /** Load-time validation of the traffic feed; rows pass through untouched. */
  function LoadTraffic(raw: Table): (r: Result<Table, SchemaViolation>)
    requires WellFormed(raw)
    ensures r.Err? <==> exists c :: c in TrafficRequired && c !in raw.columns
    ensures r.Err? ==> r.error == MissingColumns(TrafficFeed, TrafficRequired - raw.columns)
    ensures r.Ok? ==> r.value == raw && TrafficRequired <= r.value.columns
  {
    if !(TrafficRequired <= raw.columns) then
      Err(MissingColumns(TrafficFeed, TrafficRequired - raw.columns))
    else
      Ok(raw)
  }
}

=== FILE: summary.dfy ===
/** `create_summary_report` (scripts/etl_pipeline.py:124-135):
    `groupby([route_id, <city column>, bus_stop])[[ridership, congestion_index]].mean()`.
    Rows with a missing group-key cell fall out of the grouping (pandas'
    default `dropna=True`).  The city column is a parameter: the source names
    `city_public`, which the unified frame carries only in some cases. */
module Summary {
  import opened Frames
  import opened Keys

  datatype GroupKey = GroupKey(route: Cell, city: Cell, stop: Cell)

  /** One line of the report: the group and its two means. */
  datatype SummaryRow = SummaryRow(key: GroupKey, avgRidership: real, avgCongestion: real)

  /** Running totals of one group during the single-pass aggregation. */
  datatype Tally = Tally(count: nat, ridership: real, congestion: real)

  function SummaryColumns(cityCol: Column): set<Column> {
    {RouteId, cityCol, BusStop, Ridership, CongestionIndex}
  }

  predicate HasSummaryColumns(rows: seq<Row>, cityCol: Column) {
    forall i :: 0 <= i < |rows| ==> SummaryColumns(cityCol) <= rows[i].Keys
  }

  /** What the grouping needs: the labels it selects, and numbers to average. */
  predicate Summarizable(u: Table, cityCol: Column) {
    && WellFormed(u)
    && SummaryColumns(cityCol) <= u.columns
    && NumbersIn(u.rows, Ridership) && NumbersIn(u.rows, CongestionIndex)
  }

  /** A row takes part in the grouping when none of its key cells is missing. */
  predicate Grouped(r: Row, cityCol: Column)
    requires SummaryColumns(cityCol) <= r.Keys
  {
    r[RouteId] != Null && r[cityCol] != Null && r[BusStop] != Null
  }

  function GroupOf(r: Row, cityCol: Column): GroupKey
    requires SummaryColumns(cityCol) <= r.Keys
  {
    GroupKey(r[RouteId], r[cityCol], r[BusStop])
  }

  /** The group key of every grouped row, in row order. */
  function GroupKeysOf(rows: seq<Row>, cityCol: Column): seq<GroupKey>
    requires HasSummaryColumns(rows, cityCol)
  {
    if |rows| == 0 then []
    else
      var n := |rows| - 1;
      assert forall j :: 0 <= j < n ==> rows[..n][j] == rows[j];
      var prefix := GroupKeysOf(rows[..n], cityCol);
      if Grouped(rows[n], cityCol) then prefix + [GroupOf(rows[n], cityCol)] else prefix
  }

  /** The keys listed are exactly those of the grouped rows. */
  lemma {:induction false} GroupKeysOfMeaning(rows: seq<Row>, cityCol: Column, k: GroupKey)
    requires HasSummaryColumns(rows, cityCol)
    ensures k in GroupKeysOf(rows, cityCol) <==>
              exists j :: 0 <= j < |rows| && Grouped(rows[j], cityCol) && GroupOf(rows[j], cityCol) == k
  {
    if |rows| > 0 {
      var n := |rows| - 1;
      assert forall j :: 0 <= j < n ==> rows[..n][j] == rows[j];
      GroupKeysOfMeaning(rows[..n], cityCol, k);
    }
  }

  /** The positions of the rows of group `k`, ascending. */
  function MemberIndices(rows: seq<Row>, cityCol: Column, k: GroupKey): (idx: seq<nat>)
    requires HasSummaryColumns(rows, cityCol)
    ensures forall j: nat :: j in idx <==> j < |rows| && Grouped(rows[j], cityCol) && GroupOf(rows[j], cityCol) == k
    ensures forall a, b :: 0 <= a < b < |idx| ==> idx[a] < idx[b]
    ensures forall a :: 0 <= a < |idx| ==> idx[a] < |rows|
  {
    if |rows| == 0 then []
    else
      var n := |rows| - 1;
      assert forall j :: 0 <= j < n ==> rows[..n][j] == rows[j];
      var prefix := MemberIndices(rows[..n], cityCol, k);
      if Grouped(rows[n], cityCol) && GroupOf(rows[n], cityCol) == k then prefix + [n] else prefix
  }

  /** The rows of group `k`, in row order. */
  function Members(rows: seq<Row>, cityCol: Column, k: GroupKey): (g: seq<Row>)
    requires HasSummaryColumns(rows, cityCol)
    ensures |g| == Count(GroupKeysOf(rows, cityCol), k)
    ensures forall r :: r in g ==> r in rows && Grouped(r, cityCol) && GroupOf(r, cityCol) == k
  {
    if |rows| == 0 then []
    else
      var n := |rows| - 1;
      var r := rows[n];
      var prefix := Members(rows[..n], cityCol, k);
      var keys := GroupKeysOf(rows[..n], cityCol);
      if Grouped(r, cityCol) then
        CountSnoc(keys, GroupOf(r, cityCol), k);
        if GroupOf(r, cityCol) == k then prefix + [r] else prefix
      else
        prefix
  }

  /** Group `k` is the selection of the rows at `MemberIndices`: every row
      of the group exactly once, in row order, and no other row. */
  lemma {:induction false} MembersAtIndices(rows: seq<Row>, cityCol: Column, k: GroupKey)
    requires HasSummaryColumns(rows, cityCol)
    ensures var g := Members(rows, cityCol, k);
      var idx := MemberIndices(rows, cityCol, k);
      |g| == |idx| && forall a :: 0 <= a < |g| ==> g[a] == rows[idx[a]]
  {
    if |rows| > 0 {
      var n := |rows| - 1;
      var pre := rows[..n];
      MembersAtIndices(pre, cityCol, k);
      var pg := Members(pre, cityCol, k);
      var pidx := MemberIndices(pre, cityCol, k);
      forall a | 0 <= a < |pg|
        ensures pg[a] == rows[pidx[a]]
      {
        assert pre[pidx[a]] == rows[pidx[a]];
      }
      if Grouped(rows[n], cityCol) && GroupOf(rows[n], cityCol) == k {
        assert Members(rows, cityCol, k) == pg + [rows[n]];
        assert MemberIndices(rows, cityCol, k) == pidx + [n];
      } else {
        assert Members(rows, cityCol, k) == pg;
        assert MemberIndices(rows, cityCol, k) == pidx;
      }
    }
  }

  predicate NumbersIn(rows: seq<Row>, col: Column) {
    forall r: Row :: r in rows ==> col in r && r[col].Num?
  }

  /** A table whose numeric columns hold numbers in every row has numbers
      under each of those labels it carries. */
  lemma NumbersFromCells(u: Table, c: Column)
    requires WellFormed(u) && NumericCells(u)
    requires c in NumericColumns && c in u.columns
    ensures NumbersIn(u.rows, c)
  {
    forall r: Row | r in u.rows
      ensures c in r && r[c].Num?
    {
      var i :| 0 <= i < |u.rows| && u.rows[i] == r;
    }
  }

  function SumOf(rows: seq<Row>, col: Column): real
    requires NumbersIn(rows, col)
  {
    if |rows| == 0 then 0.0
    else SumOf(rows[..|rows| - 1], col) + rows[|rows| - 1][col].num
  }

  /** The report line of a group from its count and sums. */
  function MeanRow(k: GroupKey, t: Tally): SummaryRow
    requires t.count > 0
  {
    SummaryRow(k, t.ridership / (t.count as real), t.congestion / (t.count as real))
  }

  /** The report line of group `k`: the sums of its members over its size. */
  function RowFor(u: Table, cityCol: Column, k: GroupKey): (s: SummaryRow)
    requires Summarizable(u, cityCol)
    requires k in GroupKeysOf(u.rows, cityCol)
    ensures s.key == k
    ensures var g := Members(u.rows, cityCol, k);
      && |g| > 0
      && s.avgRidership == SumOf(g, Ridership) / (|g| as real)
      && s.avgCongestion == SumOf(g, CongestionIndex) / (|g| as real)
  {
    MeanRow(k, TallyOf(Members(u.rows, cityCol, k)))
  }

  /** The summary report: one line per distinct group key, in order of first
      appearance, with the means of the group's ridership and congestion. */
  function Summarize(u: Table, cityCol: Column): (rep: seq<SummaryRow>)
    requires Summarizable(u, cityCol)
    ensures forall i, j :: 0 <= i < j < |rep| ==> rep[i].key != rep[j].key
    ensures forall k :: (exists i :: 0 <= i < |rep| && rep[i].key == k) <==> k in GroupKeysOf(u.rows, cityCol)
    ensures forall i :: 0 <= i < |rep| ==>
              var g := Members(u.rows, cityCol, rep[i].key);
              && |g| > 0
              && rep[i].avgRidership == SumOf(g, Ridership) / (|g| as real)
              && rep[i].avgCongestion == SumOf(g, CongestionIndex) / (|g| as real)
  {
    var ks := Distinct(GroupKeysOf(u.rows, cityCol));
    var rep := seq(|ks|, i requires 0 <= i < |ks| => RowFor(u, cityCol, ks[i]));
    assert forall i :: 0 <= i < |ks| ==> rep[i] == RowFor(u, cityCol, ks[i]) && rep[i].key == ks[i];
    assert forall k :: k in ks ==> exists i :: 0 <= i < |rep| && rep[i].key == k;
    rep
  }

  /** The report has a line for `k` exactly when some row with complete
      group-key cells has key `k`. */
  lemma ReportKeys(u: Table, cityCol: Column, k: GroupKey)
    requires Summarizable(u, cityCol)
    ensures var rep := Summarize(u, cityCol);
      (exists i :: 0 <= i < |rep| && rep[i].key == k) <==>
      exists j :: 0 <= j < |u.rows| && Grouped(u.rows[j], cityCol) && GroupOf(u.rows[j], cityCol) == k
  {
    var rep := Summarize(u, cityCol);
    GroupKeysOfMeaning(u.rows, cityCol, k);
    assert (exists i :: 0 <= i < |rep| && rep[i].key == k) <==> k in GroupKeysOf(u.rows, cityCol);
  }

  function TallyOf(g: seq<Row>): Tally
    requires NumbersIn(g, Ridership) && NumbersIn(g, CongestionIndex)
  {
    Tally(|g|, SumOf(g, Ridership), SumOf(g, CongestionIndex))
  }

  /** A row the grouping can read: it has the selected labels and numbers to
      average. */
  predicate RowReady(r: Row, cityCol: Column) {
    SummaryColumns(cityCol) <= r.Keys && r[Ridership].Num? && r[CongestionIndex].Num?
  }

  predicate Ready(rows: seq<Row>, cityCol: Column) {
    HasSummaryColumns(rows, cityCol) && NumbersIn(rows, Ridership) && NumbersIn(rows, CongestionIndex)
  }

  lemma ReadySnoc(rows: seq<Row>, r: Row, cityCol: Column)
    requires Ready(rows, cityCol) && RowReady(r, cityCol)
    ensures Ready(rows + [r], cityCol)
    ensures (rows + [r])[..|rows|] == rows && (rows + [r])[|rows|] == r
  {
    assert forall j :: 0 <= j < |rows| ==> (rows + [r])[j] == rows[j];
  }

  lemma ReadyPrefix(rows: seq<Row>, cityCol: Column, n: nat)
    requires Ready(rows, cityCol) && n < |rows|
    ensures Ready(rows[..n], cityCol) && RowReady(rows[n], cityCol)
    ensures rows[..n + 1] == rows[..n] + [rows[n]]
  {
    assert rows[n] in rows;
    assert forall j :: 0 <= j < n ==> rows[..n][j] == rows[j];
  }

  /** Scanning one more row adds its key to the first-seen order when it is
      grouped and new. */
  lemma KeysStep(rows: seq<Row>, r: Row, cityCol: Column)
    requires Ready(rows, cityCol) && RowReady(r, cityCol)
    ensures Ready(rows + [r], cityCol)
    ensures var before := Distinct(GroupKeysOf(rows, cityCol));
      Distinct(GroupKeysOf(rows + [r], cityCol))
        == if Grouped(r, cityCol) && GroupOf(r, cityCol) !in before
           then before + [GroupOf(r, cityCol)]
           else before
  {
    ReadySnoc(rows, r, cityCol);
    var keys := GroupKeysOf(rows, cityCol);
    if Grouped(r, cityCol) {
      var k := GroupOf(r, cityCol);
      assert GroupKeysOf(rows + [r], cityCol) == keys + [k];
      assert (keys + [k])[..|keys|] == keys;
    }
  }

  /** Appending a row to the table appends it to its own group only. */
  lemma MembersSnoc(rows: seq<Row>, r: Row, cityCol: Column, k: GroupKey)
    requires Ready(rows, cityCol) && RowReady(r, cityCol)
    ensures Ready(rows + [r], cityCol)
    ensures Members(rows + [r], cityCol, k)
              == if Grouped(r, cityCol) && GroupOf(r, cityCol) == k
                 then Members(rows, cityCol, k) + [r]
                 else Members(rows, cityCol, k)
  {
    ReadySnoc(rows, r, cityCol);
  }

  /** Appending a row to a group adds one to its count and the row's numbers
      to its sums. */
  lemma TallySnoc(g: seq<Row>, r: Row)
    requires NumbersIn(g, Ridership) && NumbersIn(g, CongestionIndex)
    requires Ridership in r && CongestionIndex in r && r[Ridership].Num? && r[CongestionIndex].Num?
    ensures NumbersIn(g + [r], Ridership) && NumbersIn(g + [r], CongestionIndex)
    ensures TallyOf(g + [r]) == AddRow(TallyOf(g), r)
  {
    assert (g + [r])[..|g|] == g;
  }

  /** The totals of no rows. */
  const NoRows: Tally := Tally(0, 0.0, 0.0)

  /** Totals with one more row counted. */
  function AddRow(t: Tally, r: Row): Tally
    requires Ridership in r && CongestionIndex in r && r[Ridership].Num? && r[CongestionIndex].Num?
  {
    Tally(t.count + 1, t.ridership + r[Ridership].num, t.congestion + r[CongestionIndex].num)
  }

  /** The totals of group `k` after row `r`: grown when `r` belongs to it. */
  function RowStep(t: Tally, r: Row, cityCol: Column, k: GroupKey): Tally
    requires RowReady(r, cityCol)
  {
    if Grouped(r, cityCol) && GroupOf(r, cityCol) == k then AddRow(t, r) else t
  }

  /** Scanning one more row adds it to its own group's tally and leaves
      every other group's tally alone. */
  lemma TallyStep(rows: seq<Row>, r: Row, cityCol: Column, k: GroupKey)
    requires Ready(rows, cityCol) && RowReady(r, cityCol)
    ensures Ready(rows + [r], cityCol)
    ensures TallyOf(Members(rows + [r], cityCol, k)) == RowStep(TallyOf(Members(rows, cityCol, k)), r, cityCol, k)
  {
    MembersSnoc(rows, r, cityCol, k);
    if Grouped(r, cityCol) && GroupOf(r, cityCol) == k {
      TallySnoc(Members(rows, cityCol, k), r);
    }
  }

  /** A key not seen yet has an empty tally. */
  lemma AbsentTally(rows: seq<Row>, cityCol: Column, k: GroupKey)
    requires Ready(rows, cityCol)
    requires k !in GroupKeysOf(rows, cityCol)
    ensures TallyOf(Members(rows, cityCol, k)) == NoRows
  {
    assert Members(rows, cityCol, k) == [];
  }

  /** After scanning `rows`, `order` lists the keys seen so far in first-seen
      order and `tally` holds each one's running totals. */
  ghost predicate Scanned(rows: seq<Row>, cityCol: Column, order: seq<GroupKey>, tally: map<GroupKey, Tally>)
    requires Ready(rows, cityCol)
  {
    && order == Distinct(GroupKeysOf(rows, cityCol))
    && (forall k :: k in tally <==> k in order)
    && (forall k :: k in tally ==> tally[k] == TallyOf(Members(rows, cityCol, k)))
  }

  /** The hash-table update for one row. */
  function Absorb(order: seq<GroupKey>, tally: map<GroupKey, Tally>, r: Row, cityCol: Column)
    : (seq<GroupKey>, map<GroupKey, Tally>)
    requires RowReady(r, cityCol)
  {
    if !Grouped(r, cityCol) then (order, tally)
    else
      var k := GroupOf(r, cityCol);
      if k in tally then (order, tally[k := AddRow(tally[k], r)])
      else (order + [k], tally[k := AddRow(NoRows, r)])
  }

  /** The update for one row adds the row to its own group's tally, starting
      a group it has not seen at zero, and leaves every other tally alone. */
  lemma AbsorbTally(r: Row, cityCol: Column, order: seq<GroupKey>, tally: map<GroupKey, Tally>, k: GroupKey, before: Tally)
    requires RowReady(r, cityCol)
    requires k in Absorb(order, tally, r, cityCol).1
    requires k in tally ==> tally[k] == before
    requires k !in tally ==> before == NoRows
    ensures Absorb(order, tally, r, cityCol).1[k] == RowStep(before, r, cityCol, k)
  {
  }

  /** One row's update keeps the running totals of each group equal to the
      totals of that group's rows so far. */
  lemma StepTally(rows: seq<Row>, r: Row, cityCol: Column, order: seq<GroupKey>, tally: map<GroupKey, Tally>, k: GroupKey)
    requires Ready(rows, cityCol) && RowReady(r, cityCol)
    requires k in Absorb(order, tally, r, cityCol).1
    requires k in tally ==> tally[k] == TallyOf(Members(rows, cityCol, k))
    requires k !in tally ==> k !in GroupKeysOf(rows, cityCol)
    ensures Ready(rows + [r], cityCol)
    ensures Absorb(order, tally, r, cityCol).1[k] == TallyOf(Members(rows + [r], cityCol, k))
  {
    var before := TallyOf(Members(rows, cityCol, k));
    var step := RowStep(before, r, cityCol, k);
    if k !in tally {
      AbsentTally(rows, cityCol, k);
    }
    AbsorbTally(r, cityCol, order, tally, k, before);
    assert Absorb(order, tally, r, cityCol).1[k] == step;
    TallyStep(rows, r, cityCol, k);
    assert TallyOf(Members(rows + [r], cityCol, k)) == step;
  }

  lemma ScanStep(rows: seq<Row>, r: Row, cityCol: Column, order: seq<GroupKey>, tally: map<GroupKey, Tally>)
    requires Ready(rows, cityCol) && RowReady(r, cityCol)
    requires Scanned(rows, cityCol, order, tally)
    ensures Ready(rows + [r], cityCol)
    ensures var next := Absorb(order, tally, r, cityCol);
      Scanned(rows + [r], cityCol, next.0, next.1)
  {
    KeysStep(rows, r, cityCol);
    var next := Absorb(order, tally, r, cityCol);
    forall k | k in next.1
      ensures next.1[k] == TallyOf(Members(rows + [r], cityCol, k))
    {
      StepTally(rows, r, cityCol, order, tally, k);
    }
  }

  /** Once every row is scanned, the remembered keys and tallies give the
      report line by line. */
  lemma ScannedReport(u: Table, cityCol: Column, order: seq<GroupKey>, tally: map<GroupKey, Tally>)
    requires Summarizable(u, cityCol) && Ready(u.rows, cityCol)
    requires Scanned(u.rows, cityCol, order, tally)
    ensures forall k :: k in order ==> k in tally && tally[k].count > 0
    ensures |order| == |Summarize(u, cityCol)|
    ensures forall a :: 0 <= a < |order| ==> MeanRow(order[a], tally[order[a]]) == Summarize(u, cityCol)[a]
  {
    var keys := GroupKeysOf(u.rows, cityCol);
    forall k | k in order
      ensures k in tally && tally[k].count > 0
    {
      assert k in keys;
    }
  }

  /** Group-by as a hash aggregation: one pass over the rows keeps a running
      count and running sums per key, remembering keys in first-seen order;
      the means are taken at the end.  It produces exactly `Summarize`. */
  method Aggregate(u: Table, cityCol: Column) returns (rep: seq<SummaryRow>)
    requires Summarizable(u, cityCol)
    ensures rep == Summarize(u, cityCol)
  {
    assert Ready(u.rows, cityCol);
    var order: seq<GroupKey> := [];
    var tally: map<GroupKey, Tally> := map[];
    var i := 0;
    assert u.rows[..0] == [];
    while i < |u.rows|
      invariant 0 <= i <= |u.rows|
      invariant Ready(u.rows[..i], cityCol)
      invariant Scanned(u.rows[..i], cityCol, order, tally)
    {
      ReadyPrefix(u.rows, cityCol, i);
      var r := u.rows[i];
      ScanStep(u.rows[..i], r, cityCol, order, tally);
      order, tally := Absorb(order, tally, r, cityCol).0, Absorb(order, tally, r, cityCol).1;
      i := i + 1;
    }
    assert u.rows[..i] == u.rows;
    ScannedReport(u, cityCol, order, tally);
    rep := Finish(order, tally);
  }

  /** The final pass of `Aggregate`: one report line per remembered key. */
  method Finish(order: seq<GroupKey>, tally: map<GroupKey, Tally>) returns (rep: seq<SummaryRow>)
    requires forall k :: k in order ==> k in tally && tally[k].count > 0
    ensures |rep| == |order|
    ensures forall a :: 0 <= a < |order| ==> rep[a] == MeanRow(order[a], tally[order[a]])
  {
    rep := [];
    var j := 0;
    while j < |order|
      invariant 0 <= j <= |order|
      invariant |rep| == j
      invariant forall a :: 0 <= a < j ==> rep[a] == MeanRow(order[a], tally[order[a]])
    {
      rep := rep + [MeanRow(order[j], tally[order[j]])];
      j := j + 1;
    }
  }
}
